=== FILE: README.md ===
# Manifest reconciliation of the meshery Istio adapter

The Istio adapter applies and removes Istio's manifests on a Kubernetes
cluster through the dynamic client. This project models that path, from one
YAML stream down to single API calls:

- **Locator** (`locator.dfy`): how `executeRule` stamps the target namespace
  on a document. It also derives the (group, version, resource) triple from
  `apiVersion` and `kind`: split on `/`, lower-case the kind, then use the
  four irregular plurals or append `s`.
- **Primitives** (`reconcile.dfy`, `client.dfy`): `createResource`,
  `getResource`, `updateResource` and `deleteResource`. Each tries the
  namespaced address first and then the un-namespaced one.
  - Create accepts AlreadyExists as success.
  - Update does not fall back after MethodNotAllowed.
  - Delete never touches the namespace named `default`.
  - Delete scales a deployment to zero replicas before deleting it.
- **Create step** of `executeRule`: create; on failure, fetch, copy the five
  server-assigned identity fields and update. On MethodNotAllowed it
  deletes, ignoring the delete error, and jumps back to `RETRY`, at most
  three times. A custom operation instead deletes and creates once more.
- **Drivers**: `applyRulePayload`, `applyConfigChange`, `applyIstioCRDs`,
  `createNamespace`, `labelNamespaceForAutoInjection` and `executeInstall`.
- **Splitter** (`splitter.dfy`): `splitYAML`, which cuts a manifest into
  entries from the results of the document decoder's reads.

The cluster is the class `Engine.ApiServer`: a map from (resource, namespace,
name) to the stored document, plus the set of cluster-scoped resource types.
Faults are a script: each call consumes the head of the fault list, and
`Some(e)` forces the error `e`. Without a fault, the map answers: AlreadyExists,
NotFound and the ordinary create, get, update and delete semantics. A
namespaced address of a cluster-scoped type answers NotFound. The server also
keeps a log of every request it received.

Module `Reconcile` states every operation as a function over a value of
that state (`Store`). The function returns the new store, the result and the
requests sent, in order. Each method of `Engine.Client` runs the operation
step by step against the mutable server, with the `goto RETRY` as a loop
bounded by the retry counter and the list and chunk loops as loops. Its
postcondition says that it leaves exactly the state, result and request log
that the function gives. Module `Facts` proves what the source promises
about those functions.

`resources.dfy` holds the shared data model: documents and their metadata,
the error classes the engine branches on, resource descriptors and keys.

`createResource` (istio/istio.go:73-86) treats AlreadyExists as success, so
the update branch of `executeRule` runs only when both create calls fail with
some other error; an object already at the address is left as it is
(`Facts.CreateFallback`, `Facts.ApplyQuiet`).

## Model

| member | source | states |
|---|---|---|
| Locator.Split | istio/istio.go:210-211 | `strings.Split` on one separator: one more part than separators, no part contains the separator, and joining the parts with it gives back the input |
| Locator.SplitOnce | istio/istio.go:210-211 | a string with one separator between two separator-free sides splits into those two sides |
| Locator.GroupVersion | istio/istio.go:210-218 | with exactly one `/` the group and version are the two sides and join back to the apiVersion; with none the group is empty and the version is the whole string; with more both are empty |
| Locator.GroupVersionOf | istio/istio.go:210-218 | an apiVersion `group/version` with no other `/` resolves to that group and version |
| Locator.ResourceName | istio/istio.go:220-232 | the resource name of any kind is non-empty and has no upper-case letter |
| Locator.PluralCollisions | istio/istio.go:220-232 | two distinct lower-cased kinds share a resource name only when one is a table entry (logentry, kubernetes, podsecuritypolicy, serviceentry) and the other spells its plural without the final `s` |
| Locator.StampNamespace | istio/istio.go:207-209 | a non-empty namespace replaces the document's namespace, an empty one keeps it, and nothing else of the document changes |
| Locator.ResourceFor | istio/istio.go:210-238 | the descriptor's group and version are the empty group and the whole apiVersion when it has no `/`, its two sides (joining back to it, neither holding a `/`) when it has one, and both empty when it has more; its resource is the kind's non-empty, lower-case plural name |
| Locator.ServiceEntryResource | istio/istio.go:204-238 | a ServiceEntry of networking.istio.io/v1alpha3 resolves to the resource `serviceentries` of that group and version |
| Locator.DeploymentResource | istio/istio.go:204-238 | a Deployment of apps/v1 resolves to the resource `deployments` of group `apps`, version `v1` |
| Resources.Named | istio/istio.go:307-312 | the probe object for a namespace has that name, no namespace and no labels |
| Reconcile.CopyIdentity | istio/istio.go:267-271 | the refreshed document takes the five server-assigned fields from the live object, and every other field, name, namespace, labels, uid and spec included, stays as it was |
| Reconcile.ScaledToZero | istio/istio.go:103-106 | the written-back deployment has `replicas` set to 0 in its spec, the other spec fields as fetched, and nothing else changed |
| Reconcile.WithInjectionLabel | istio/istio.go:335-337 | the relabelled namespace carries `istio-injection: enabled` as its only label, and nothing else of the fetched object changes |
| Facts.CreateFallback | istio/istio.go:73-86 | the un-namespaced create is sent exactly when the namespaced one was neither a success nor AlreadyExists, and then its outcome is the result; a single call always succeeds; the result is never AlreadyExists; only the document's two addresses can change |
| Facts.GetFallback | istio/istio.go:127-142 | the un-namespaced get is sent exactly when the namespaced one failed, and then its answer is the result; a single call answers the namespaced result; no stored object changes |
| Facts.UpdateFallback | istio/istio.go:144-165 | the un-namespaced update is sent exactly when the namespaced one failed with anything but MethodNotAllowed, and then its outcome is the result; a single failing call is MethodNotAllowed; only the document's two addresses can change |
| Facts.DeleteCallsFallback | istio/istio.go:112-124 | the un-namespaced delete is sent exactly when the namespaced one failed, and then its outcome is the result; a single call succeeds; only the document's two addresses can change |
| Facts.CreateQuiet | istio/istio.go:73-86 | without faults create succeeds with one request at a namespaced address the store serves, else with two at the un-namespaced address; the document is stored there unless an object already is, which is then kept unchanged |
| Facts.GetQuiet | istio/istio.go:127-142 | without faults get answers the namespaced object, else the un-namespaced one, else NotFound |
| Facts.UpdateQuiet | istio/istio.go:144-165 | without faults update replaces the namespaced object, else the un-namespaced one, else fails with NotFound and changes nothing |
| Facts.DeleteCallsQuiet | istio/istio.go:112-124 | without faults the delete removes the namespaced object, else the un-namespaced one, else fails with NotFound and changes nothing |
| Facts.DefaultNamespaceKept | istio/istio.go:93-95 | deleting the namespace named default succeeds, sends no request and leaves the store as it was |
| Facts.DeploymentScaledFirst | istio/istio.go:98-110 | a delete request for a deployment is only ever sent after an update that writes it back with zero replicas |
| Facts.DeploymentDeleteAborts | istio/istio.go:98-110 | a failed fetch, a spec that is not a mapping (a panic in the Go code) or a failed write-back ends the delete of a deployment with that error |
| Facts.DeleteSendsNoCreate | istio/istio.go:88-125 | deleting never sends a create request |
| Facts.PassCreates | istio/istio.go:244-285 | one pass of the create step sends at most two create requests, and exactly two when it ends in a retry |
| Facts.RefusedExactly | istio/istio.go:245-285 | a pass is refused exactly when the create fails, the fetch answers, the update of the refreshed document is refused with MethodNotAllowed and the delete that follows does not panic |
| Facts.RetryCreateBound | istio/istio.go:244-289 | a non-custom create step sends at most 8 create requests: at most 4 create attempts, so at most 3 retries |
| Facts.CustomCreateBound | istio/istio.go:247-254 | the custom path sends at most 4 create requests: the first create and the one after the delete |
| Facts.CustomPath | istio/istio.go:245-254 | after a failed create the custom path never retries; it returns the delete's error (having sent 2 create requests), or else the result of exactly one more create |
| Facts.FetchErrorReturned | istio/istio.go:262-266 | a failed fetch after a failed create ends the step at once with the fetch's error, with no update and no retry |
| Facts.UpdateErrorReturned | istio/istio.go:272-285 | an update error other than MethodNotAllowed ends the step at once with that error, with no delete and no retry |
| Facts.PersistentRefusal | istio/istio.go:243-289 | when every pass is refused, whatever else the store does, the step returns MethodNotAllowed after two create requests per remaining pass: eight from the first pass |
| Facts.RefusalAgain | istio/istio.go:274-281 | a refused pass with retries left hands on exactly the store, the refreshed document and the requests of that pass; it sent two create requests, and the step continues as the next attempt from there; a run of refused passes continues there |
| Facts.RefusalLast | istio/istio.go:278-284 | a pass refused after the last retry ends the step with the update's MethodNotAllowed error, on the store the pass left, after two create requests |
| Facts.ScriptedRefusal | istio/istio.go:272-285 | an object at its namespaced address and a fault script that refuses each remaining pass make every pass refused; the step ends with the rest of the script and every stored object in place |
| Facts.ApplyQuiet | istio/istio.go:204-289 | without faults applying a document succeeds with only create requests, one or two as the namespaced address is served or not; the stamped document is stored at that address, or the object already there is kept and no update follows |
| Facts.NullDocumentSkipped | istio/istio.go:184-185 | a chunk whose JSON is at most 5 bytes (`null`) succeeds without a request |
| Facts.ItemsCompose | istio/istio.go:192-198 | the items of a List run in order, the later ones only when all earlier ones succeeded |
| Facts.BlankChunksSkipped | istio/istio.go:1190-1193 | blank chunks change nothing: the chunks apply as if only the non-blank ones were there |
| Facts.DeleteOnlyFirst | istio/istio.go:1189-1203 | in delete mode only the first non-blank chunk is applied; every later document is left in place |
| Facts.ChunksCompose | istio/istio.go:1189-1204 | in apply mode the chunks run in order, the later ones only when all earlier ones succeeded |
| Facts.CrdsCompose | istio/istio.go:292-304 | the CRD manifests run in order, the later ones only when all earlier ones succeeded |
| Facts.InjectionLabelWritten | istio/istio.go:306-343 | when labelling succeeds, its last request is an update of the namespace object carrying the injection label as its only label |
| Facts.RemovalIgnoresCrds | istio/istio.go:379-396 | removal sends the main manifest's requests first, then the CRD removal's (none when the CRD list is missing), and returns the main manifest's result whatever error the CRD removal returns; a panic in the CRD removal (`Crash`) ends the call with `Crash`; a missing CRD list leaves exactly the main manifest's step |
| Facts.InstallCrdsFirst | istio/istio.go:379-396 | install sends the CRD requests first; a CRD failure is the whole install's outcome, with no request for the main manifest; otherwise the main manifest's requests follow and give the result and the final state |
| Facts.InstallNeedsCrds | istio/istio.go:385-389 | install without the CRD manifests fails before sending any request |
| Facts.CallKeepsWellKeyed | istio/istio.go:73-165 | a call that sends a body under its own name keeps every stored object under its own name |
| Facts.PrimitivesKeepWellKeyed | istio/istio.go:73-165 | create, get, update and delete, the scale-down included, keep every stored object under its own name |
| Splitter.Segments | istio/istio.go:1262-1280 | the read loop builds one entry per document-ending read, plus the one the loop-ending read lands in; what the entries hold, in order, is Splitter.SegmentsInReadOrder |
| Splitter.SegmentsInReadOrder | istio/istio.go:1262-1280 | laid end to end, the entries are exactly the bytes read, in read order, up to the read that ends the loop |
| Splitter.TrimNulRemovesNuls | istio/istio.go:1281-1287 | trimming only removes NUL bytes: the result is the slice of the entry between its leading and its trailing NULs |
| Splitter.TrimNulIdempotent | istio/istio.go:1281-1287 | a trimmed entry trims to itself |
| Splitter.Entries | istio/istio.go:1249-1288 | splitting fails only when no decoder can be built; otherwise entry k is segment k of the reads with its NULs trimmed, one entry more than document-ending reads, none with a NUL at either end |
| Splitter.ReadEntries | istio/istio.go:1262-1280 | the loop that grows `data` and advances `ind` builds exactly the entries of the decoder's script |
| Splitter.TrimEntries | istio/istio.go:1281-1287 | the trim pass trims every entry and keeps their order |
| Splitter.SplitYaml | istio/istio.go:1249-1288 | `splitYAML` returns exactly the entries above |
| Engine.ApiServer.Serve | istio/istio.go:73-165 | one API call changes the server exactly as the store semantics say and appends it to the log |
| Engine.Client.CreateResource | istio/istio.go:73-86 | the server state, the result and the requests are those of `Reconcile.CreateResource` (istio/istio.go:73-86), which Facts.CreateFallback and Facts.CreateQuiet characterise |
| Engine.Client.GetResource | istio/istio.go:127-142 | the server state, the result and the requests are those of `Reconcile.GetResource` (istio/istio.go:127-142), which Facts.GetFallback and Facts.GetQuiet characterise |
| Engine.Client.UpdateResource | istio/istio.go:144-165 | the server state, the result and the requests are those of `Reconcile.UpdateResource` (istio/istio.go:144-165), which Facts.UpdateFallback and Facts.UpdateQuiet characterise |
| Engine.Client.DeleteResource | istio/istio.go:88-125 | the server state, the result and the requests are those of `Reconcile.DeleteResource` (istio/istio.go:88-125), the deployment scale-down included; Facts.DefaultNamespaceKept, Facts.DeploymentScaledFirst, Facts.DeploymentDeleteAborts and Facts.DeleteSendsNoCreate characterise it |
| Engine.Client.DeleteCalls | istio/istio.go:112-124 | the server state, the result and the requests are those of `Reconcile.DeleteCalls` (istio/istio.go:112-124), which Facts.DeleteCallsFallback and Facts.DeleteCallsQuiet characterise |
| Engine.Client.ExecuteRule | istio/istio.go:204-290 | stamping, resolving and then deleting or creating leaves the state, result and requests of `Reconcile.ApplyRule` (istio/istio.go:204-290); Facts.ApplyQuiet characterises it |
| Engine.Client.CreateOrUpdate | istio/istio.go:243-289 | the loop over `trackRetry` leaves exactly the state, result and requests of `Reconcile.Attempt` from no retries spent (istio/istio.go:243-289): at most three retries, each on the refreshed document; Facts.RetryCreateBound, Facts.PersistentRefusal and Facts.CustomPath characterise it |
| Engine.Client.CreateOnce | istio/istio.go:244-285 | one pass either returns with the state, result and requests of `Reconcile.Attempt`, or, exactly when `Reconcile.CreatePass` (istio/istio.go:244-285) was refused and retries remain, jumps back with its refreshed document after its requests (a panic in the delete ends the loop); Facts.PassCreates and Facts.RefusedExactly characterise the pass |
| Engine.Client.EachListItem | istio/istio.go:192-198 | the item loop leaves the state of `Reconcile.ApplyItems` (istio/istio.go:192-198): the items in order up to the first failure (Facts.ItemsCompose) |
| Engine.Client.ApplyRulePayload | istio/istio.go:172-202 | one chunk leaves the state of `Reconcile.ApplyPayload` (istio/istio.go:172-202): no client, bad YAML, `null`, bad JSON, a List or one document (Facts.NullDocumentSkipped) |
| Engine.Client.ApplyConfigChange | istio/istio.go:1181-1205 | splitting then applying the chunks leaves the state of `Reconcile.ApplyConfigChange` (istio/istio.go:1181-1205) |
| Engine.Client.ApplyEachChunk | istio/istio.go:1189-1204 | the chunk loop leaves the state of `Reconcile.ApplyChunks` (istio/istio.go:1189-1204), the return after the first deleted chunk included (Facts.BlankChunksSkipped, Facts.DeleteOnlyFirst, Facts.ChunksCompose) |
| Engine.Client.ApplyIstioCrds | istio/istio.go:292-304 | a missing CRD list changes nothing; otherwise the CRD loop leaves the state of `Reconcile.ApplyCrds` (istio/istio.go:292-304), the manifests in order (Facts.CrdsCompose) |
| Engine.Client.CreateNamespace | istio/istio.go:345-355 | a failed template render is returned, otherwise the rendered namespace is applied: the state of `Reconcile.CreateNamespace` (istio/istio.go:345-355) |
| Engine.Client.LabelNamespaceForAutoInjection | istio/istio.go:306-343 | fetch, create if NotFound, fetch again and relabel leave the state of `Reconcile.LabelNamespace` (istio/istio.go:306-343); Facts.InjectionLabelWritten characterises it |
| Engine.Client.ExecuteInstall | istio/istio.go:377-404 | install applies the CRDs then the main manifest (`Reconcile.MainChange`, istio/istio.go:390-396); removal deletes the main manifest, then the CRDs with their error dropped unless it is a panic: the state of `Reconcile.ExecuteInstall` (istio/istio.go:377-404), characterised by Facts.InstallCrdsFirst, Facts.RemovalIgnoresCrds and Facts.InstallNeedsCrds |

## Left out

- `StreamEvents` and the event channel: a polling loop with sleeps and a goroutine; its point is concurrency.
- The per-operation switch of `ApplyOperation`, `SupportedOperations` and the SMI conformance wrapper: glue, goroutines and foreign library calls.
- Reconcile.ApplyRule: `createResource`, `getResource` and `updateResource` dereference the client without a nil check, and the model serves their requests whether or not a client is connected. Only `deleteResource` (istio/istio.go:89-91) and `labelNamespaceForAutoInjection` (which becomes `Crash`) model the missing client, because `executeRule` is reached only through `applyRulePayload`, which returns its nil-client error first (istio/istio.go:173-175). A rule applied without a client is therefore not modelled as a panic.
- Building the Kubernetes clients (`CreateMeshInstance`): the model takes a client that is either connected or missing.
- `executeTemplate`, the `get…YAML` manifest getters and the HTTP fetch: their outputs are parameters (a `Result` of a manifest) and are not computed here.
- `os.Setenv` in `executeInstall` and all logging: no effect on the cluster state.
- The one-second sleep on the custom path: a no-op here.
- `NewDocumentDecoder`: a manifest is the script of its decoder's read results (`Option` of reads; `None` when no decoder can be built). Reads past the script return io.EOF.
- `yaml.YAMLToJSON`, `UnmarshalJSON` and `EachListItem`'s item decoding: the `Codec` oracle, which gives the JSON bytes and then a malformed result, one document, or list items.
- Error messages and `errors.Wrap` text: only the error class survives. MethodNotAllowed stands for an error whose text contains the server's "does not allow this method" message.
- Panics (a nil client dereferenced, a failed type assertion on a deployment's spec) become the error `Crash`. The Go process would abort. A `Crash` therefore ends the call even where the Go code drops the error: the delete after a refused update (istio/istio.go:276-278, which can panic at istio/istio.go:104) and the deferred CRD removal (istio/istio.go:380-384). The model does not go on past a panic.
- Reconcile.Reachable: rejects only a namespaced address of a cluster-scoped type. The store serves the un-namespaced address of a namespaced type like any other key, for example a document whose namespace was cleared (istio/istio.go:378), where a real API server refuses the request. The server's validation is not part of this model.
- `strings.ToLower` and `strings.TrimSpace` are modelled on ASCII only.
- Locator.ResourceName: states non-emptiness and lower case; the table itself is the body of `Plural`, and its consequences are `Locator.PluralCollisions`.
- The request log of `Engine.ApiServer` is a modelling device with no counterpart in the source. It lets the contracts speak about the order and number of requests.

=== FILE: client.dfy ===
/**
 * The engine in the form the Go code takes: a client object whose methods
 * call a mutable API surface one request at a time. Every method is proved to
 * leave the API surface in the state, and to return the result, that the
 * matching function of module Reconcile gives.
 */
module Engine {
  import opened Resources
  import opened Locator
  import Splitter
  import opened Reconcile

  /** How one pass of the create step ends: a return, or a jump back to `RETRY` with the refreshed document. */
  datatype Pass = Done(result: Result<()>) | Again(data: Document)

  /**
   * The API surface is in the store `x` ends in, `r` is the result `x`
   * gives, and the log grew from `log0` by the requests `x` sent.
   */
  ghost predicate Matches<T>(api: ApiServer, log0: seq<Request>, x: Step<T>, r: Result<T>)
    reads api
  {
    api.State() == x.store && r == x.result && api.log == log0 + x.sent
  }

  /** The requests of two steps in a row, regrouped. */
  lemma Regroup(log0: seq<Request>, a: seq<Request>, b: seq<Request>)
    ensures log0 + a + b == log0 + (a + b)
  {
  }

  /** The create step entered with `tries` retries spent, after the requests `done`, reaches `goal`. */
  ghost predicate OnTrack(s: Store, connected: bool, res: Gvr, d: Document, custom: bool, tries: nat,
                          done: seq<Request>, goal: Step<()>)
  {
    tries <= MaxRetries && After(done, Attempt(s, connected, res, d, custom, tries)) == goal
  }

  /**
   * One pass from `s` (log `log1`) to `t` (log `log2`) follows the create
   * step: a return ends where the step ends, with its result; a jump back
   * sent `sent` and leaves the step entered with the next retry.
   */
  ghost predicate Advances(s: Store, log1: seq<Request>, t: Store, log2: seq<Request>, connected: bool, res: Gvr,
                           d: Document, custom: bool, tries: nat, next: Pass, sent: seq<Request>)
    requires tries <= MaxRetries
  {
    var a := Attempt(s, connected, res, d, custom, tries);
    && (next.Done? ==> t == a.store && next.result == a.result && log2 == log1 + a.sent)
    && (next.Again? ==>
          && tries < MaxRetries
          && log2 == log1 + sent
          && a == After(sent, Attempt(t, connected, res, next.data, custom, tries + 1)))
  }

  /** One pass of the retry loop keeps it on track towards `goal`. */
  lemma PassOnTrack(s: Store, log1: seq<Request>, t: Store, log2: seq<Request>, connected: bool, res: Gvr,
                    d: Document, custom: bool, tries: nat, next: Pass, sent: seq<Request>,
                    log0: seq<Request>, done: seq<Request>, goal: Step<()>)
    requires OnTrack(s, connected, res, d, custom, tries, done, goal) && log1 == log0 + done
    requires Advances(s, log1, t, log2, connected, res, d, custom, tries, next, sent)
    ensures next.Done? ==> t == goal.store && next.result == goal.result && log2 == log0 + goal.sent
    ensures next.Again? ==> OnTrack(t, connected, res, next.data, custom, tries + 1, done + sent, goal)
    ensures next.Again? ==> log2 == log0 + (done + sent)
  {
    var a := Attempt(s, connected, res, d, custom, tries);
    if next.Done? {
      Regroup(log0, done, a.sent);
    } else {
      var b := Attempt(t, connected, res, next.data, custom, tries + 1);
      Regroup(log0, done, sent);
      Regroup(done, sent, b.sent);
    }
  }

  /** The API surface the dynamic client talks to. */
  class ApiServer {
    var objects: map<Key, Document>
    const clusterScoped: set<Gvr>
    var faults: seq<Option<ApiError>>
    var log: seq<Request>

    function State(): Store
      reads this
    {
      Store(objects, clusterScoped, faults)
    }

    constructor (objects: map<Key, Document>, clusterScoped: set<Gvr>, faults: seq<Option<ApiError>>)
      ensures State() == Store(objects, clusterScoped, faults) && log == []
    {
      this.objects := objects;
      this.clusterScoped := clusterScoped;
      this.faults := faults;
      this.log := [];
    }

    /** Serve one request: a scripted fault if one is due, otherwise the stored objects answer. */
    method Serve(verb: Verb, k: Key, body: Document) returns (r: Result<Document>)
      requires k.name == body.meta.name
      modifies this
      ensures Matches(this, old(log), Call(old(State()), verb, k, body), r)
    {
      var fault: Option<ApiError> := None;
      if faults != [] {
        fault := faults[0];
        faults := faults[1..];
      }
      log := log + [Request(verb, k, body)];
      if fault.Some? {
        return Err(Api(fault.value));
      }
      if k.gvr in clusterScoped && k.namespace != "" {
        return Err(Api(NotFound));
      }
      match verb {
        case Create =>
          if k in objects {
            return Err(Api(AlreadyExists));
          }
          objects := objects[k := body];
          return Ok(body);
        case Get =>
          if k in objects {
            return Ok(objects[k]);
          }
          return Err(Api(NotFound));
        case Update =>
          if k in objects {
            objects := objects[k := body];
            return Ok(body);
          }
          return Err(Api(NotFound));
        case Delete =>
          if k in objects {
            var gone := objects[k];
            objects := objects - {k};
            return Ok(gone);
          }
          return Err(Api(NotFound));
      }
    }
  }

  /** The mesh client: a handle on the API surface, present once the client has been created. */
  class Client {
    const api: ApiServer
    const connected: bool

    constructor (api: ApiServer, connected: bool)
      ensures this.api == api && this.connected == connected
    {
      this.api := api;
      this.connected := connected;
    }

    /** `createResource`. */
    method CreateResource(res: Gvr, d: Document) returns (r: Result<()>)
      modifies api
      ensures Matches(api, old(api.log), Reconcile.CreateResource(old(api.State()), res, d), r)
    {
      var a := api.Serve(Create, NsKey(res, d), d);
      if Tolerated(a) {
        return Ok(());
      }
      var b := api.Serve(Create, ClusterKey(res, d), d);
      if Tolerated(b) {
        return Ok(());
      }
      return Err(b.error);
    }

    /** `getResource`. */
    method GetResource(res: Gvr, d: Document) returns (r: Result<Document>)
      modifies api
      ensures Matches(api, old(api.log), Reconcile.GetResource(old(api.State()), res, d), r)
    {
      r := api.Serve(Get, NsKey(res, d), d);
      if r.Err? {
        r := api.Serve(Get, ClusterKey(res, d), d);
      }
    }

    /** `updateResource`. */
    method UpdateResource(res: Gvr, d: Document) returns (r: Result<()>)
      modifies api
      ensures Matches(api, old(api.log), Reconcile.UpdateResource(old(api.State()), res, d), r)
    {
      var a := api.Serve(Update, NsKey(res, d), d);
      if a.Ok? {
        return Ok(());
      }
      if a.error == Api(MethodNotAllowed) {
        return Err(a.error);
      }
      var b := api.Serve(Update, ClusterKey(res, d), d);
      if b.Ok? {
        return Ok(());
      }
      return Err(b.error);
    }

    /** `deleteResource`. */
    method DeleteResource(res: Gvr, d: Document) returns (r: Result<()>)
      modifies api
      ensures Matches(api, old(api.log), Reconcile.DeleteResource(old(api.State()), connected, res, d), r)
    {
      if !connected {
        return Err(NoClient);
      }
      if res.resource == "namespaces" && d.meta.name == "default" {
        return Ok(());
      }
      ghost var log0 := api.log;
      ghost var done: seq<Request> := [];
      if res.resource == "deployments" {
        ghost var g := Reconcile.GetResource(api.State(), res, d);
        var fetched := GetResource(res, d);
        if fetched.Err? {
          return Err(fetched.error);
        }
        var live := fetched.value;
        if !live.spec.Mapping? {
          return Err(Crash);
        }
        var spec := live.spec.fields;
        spec := spec["replicas" := Num(0)];
        live := live.(spec := Mapping(spec));
        ghost var u := Reconcile.UpdateResource(api.State(), res, live);
        r := UpdateResource(res, live);
        Regroup(log0, g.sent, u.sent);
        if r.Err? {
          return;
        }
        done := g.sent + u.sent;
      }
      ghost var x := Reconcile.DeleteCalls(api.State(), res, d);
      r := DeleteCalls(res, d);
      Regroup(log0, done, x.sent);
    }

    /** The two delete calls that end `deleteResource`. */
    method DeleteCalls(res: Gvr, d: Document) returns (r: Result<()>)
      modifies api
      ensures Matches(api, old(api.log), Reconcile.DeleteCalls(old(api.State()), res, d), r)
    {
      var a := api.Serve(Delete, NsKey(res, d), d);
      if a.Ok? {
        return Ok(());
      }
      var b := api.Serve(Delete, ClusterKey(res, d), d);
      if b.Ok? {
        return Ok(());
      }
      return Err(b.error);
    }

    /** `executeRule`: stamp the namespace, resolve the resource, then delete or create-or-update. */
    method ExecuteRule(d: Document, namespace: string, delete: bool, custom: bool) returns (r: Result<()>)
      modifies api
      ensures Matches(api, old(api.log), ApplyRule(old(api.State()), connected, d, namespace, delete, custom), r)
    {
      var data := StampNamespace(d, namespace);
      var res := ResourceFor(data);
      if delete {
        r := DeleteResource(res, data);
      } else {
        r := CreateOrUpdate(res, data, custom);
      }
    }

    /** The `RETRY` part of `executeRule`, with `goto RETRY` as a loop bounded by `trackRetry`. */
    method CreateOrUpdate(res: Gvr, d: Document, custom: bool) returns (r: Result<()>)
      modifies api
      ensures Matches(api, old(api.log), Attempt(old(api.State()), connected, res, d, custom, 0), r)
    {
      ghost var goal := Attempt(api.State(), connected, res, d, custom, 0);
      ghost var log0 := api.log;
      ghost var done: seq<Request> := [];
      var data := d;
      var trackRetry := 0;
      while true
        invariant OnTrack(api.State(), connected, res, data, custom, trackRetry, done, goal)
        invariant api.log == log0 + done
        decreases MaxRetries - trackRetry
      {
        ghost var s := api.State();
        ghost var log1 := api.log;
        var next, sent := CreateOnce(res, data, custom, trackRetry);
        PassOnTrack(s, log1, api.State(), api.log, connected, res, data, custom, trackRetry, next, sent, log0, done, goal);
        if next.Done? {
          return next.result;
        }
        done := done + sent;
        data := next.data;
        trackRetry := trackRetry + 1;
      }
    }

    /**
     * One pass from `RETRY:` to either a return (`Done`) or the `goto RETRY`
     * taken while `trackRetry`, advanced from `tries`, is at most the bound
     * (`Again`, carrying the document with its identity fields refreshed).
     * `sent` is what the pass sent before jumping back.
     */
    method CreateOnce(res: Gvr, data: Document, custom: bool, tries: nat) returns (next: Pass, ghost sent: seq<Request>)
      requires tries <= MaxRetries
      modifies api
      ensures var o := CreatePass(old(api.State()), connected, res, data, custom);
        && (next.Again? <==> o.Refused? && tries < MaxRetries)
        && (next.Again? ==> next.data == o.data && sent == o.sent)
      ensures Advances(old(api.State()), old(api.log), api.State(), api.log, connected, res, data, custom, tries, next, sent)
    {
      ghost var log0 := api.log;
      ghost var c := Reconcile.CreateResource(api.State(), res, data);
      var created := CreateResource(res, data);
      sent := [];
      if created.Ok? {
        return Done(Ok(())), sent;
      }
      if custom {
        ghost var x := Reconcile.DeleteResource(api.State(), connected, res, data);
        var r := DeleteResource(res, data);
        Regroup(log0, c.sent, x.sent);
        if r.Err? {
          return Done(r), sent;
        }
        ghost var c2 := Reconcile.CreateResource(api.State(), res, data);
        r := CreateResource(res, data);
        Regroup(log0, c.sent + x.sent, c2.sent);
        return Done(r), sent;
      }
      ghost var g := Reconcile.GetResource(api.State(), res, data);
      var fetched := GetResource(res, data);
      Regroup(log0, c.sent, g.sent);
      if fetched.Err? {
        return Done(Err(fetched.error)), sent;
      }
      var refreshed := CopyIdentity(data, fetched.value);
      ghost var u := Reconcile.UpdateResource(api.State(), res, refreshed);
      var r := UpdateResource(res, refreshed);
      Regroup(log0, c.sent + g.sent, u.sent);
      if r.Ok? || r.error != Api(MethodNotAllowed) {
        return Done(r), sent;
      }
      ghost var x := Reconcile.DeleteResource(api.State(), connected, res, refreshed);
      var deleted := DeleteResource(res, refreshed);
      Regroup(log0, c.sent + g.sent + u.sent, x.sent);
      sent := c.sent + g.sent + u.sent + x.sent;
      if deleted == Err(Crash) {
        return Done(deleted), sent;
      }
      if tries + 1 <= MaxRetries {
        return Again(refreshed), sent;
      }
      return Done(r), sent;
    }

    /** The `EachListItem` callback loop of `applyRulePayload`. */
    method EachListItem(items: seq<Item>, namespace: string, delete: bool, custom: bool) returns (r: Result<()>)
      modifies api
      ensures Matches(api, old(api.log), ApplyItems(old(api.State()), connected, items, namespace, delete, custom), r)
    {
      ghost var goal := ApplyItems(api.State(), connected, items, namespace, delete, custom);
      ghost var log0 := api.log;
      ghost var done: seq<Request> := [];
      for i := 0 to |items|
        invariant After(done, ApplyItems(api.State(), connected, items[i..], namespace, delete, custom)) == goal
        invariant api.log == log0 + done
      {
        assert items[i..][1..] == items[i + 1..];
        if items[i].NotAnObject? {
          return Err(BadListItem);
        }
        ghost var a := ApplyRule(api.State(), connected, items[i].doc, namespace, delete, custom);
        r := ExecuteRule(items[i].doc, namespace, delete, custom);
        Regroup(log0, done, a.sent);
        if r.Err? {
          return;
        }
        Regroup(done, a.sent, ApplyItems(api.State(), connected, items[i + 1..], namespace, delete, custom).sent);
        done := done + a.sent;
      }
      return Ok(());
    }

    /** `applyRulePayload`. */
    method ApplyRulePayload(codec: Codec, namespace: string, chunk: seq<byte>, delete: bool, custom: bool) returns (r: Result<()>)
      modifies api
      ensures Matches(api, old(api.log), ApplyPayload(old(api.State()), connected, codec, namespace, chunk, delete, custom), r)
    {
      if !connected {
        return Err(NoClient);
      }
      var json := codec.toJson(chunk);
      if json.None? {
        return Err(BadYaml);
      }
      if |json.value| > NullJsonLength {
        match codec.unmarshal(json.value) {
          case Malformed =>
            return Err(BadJson);
          case Items(items) =>
            r := EachListItem(items, namespace, delete, custom);
          case Single(doc) =>
            r := ExecuteRule(doc, namespace, delete, custom);
        }
        return;
      }
      return Ok(());
    }

    /** `applyConfigChange`. */
    method ApplyConfigChange(codec: Codec, manifest: Manifest, namespace: string, delete: bool, custom: bool) returns (r: Result<()>)
      modifies api
      ensures Matches(api, old(api.log), Reconcile.ApplyConfigChange(old(api.State()), connected, codec, manifest, namespace, delete, custom), r)
    {
      var split := Splitter.SplitYaml(manifest);
      if split.Err? {
        return Err(split.error);
      }
      r := ApplyEachChunk(codec, split.value, namespace, delete, custom);
    }

    /** The loop of `applyConfigChange` over the chunks `splitYAML` produced. */
    method ApplyEachChunk(codec: Codec, chunks: seq<seq<byte>>, namespace: string, delete: bool, custom: bool) returns (r: Result<()>)
      modifies api
      ensures Matches(api, old(api.log), ApplyChunks(old(api.State()), connected, codec, chunks, namespace, delete, custom), r)
    {
      ghost var goal := ApplyChunks(api.State(), connected, codec, chunks, namespace, delete, custom);
      ghost var log0 := api.log;
      ghost var done: seq<Request> := [];
      for i := 0 to |chunks|
        invariant After(done, ApplyChunks(api.State(), connected, codec, chunks[i..], namespace, delete, custom)) == goal
        invariant api.log == log0 + done
      {
        assert chunks[i..][1..] == chunks[i + 1..];
        if !Blank(chunks[i]) {
          ghost var a := ApplyPayload(api.State(), connected, codec, namespace, chunks[i], delete, custom);
          r := ApplyRulePayload(codec, namespace, chunks[i], delete, custom);
          Regroup(log0, done, a.sent);
          if r.Err? {
            return;
          }
          if delete {
            return Ok(());
          }
          Regroup(done, a.sent, ApplyChunks(api.State(), connected, codec, chunks[i + 1..], namespace, delete, custom).sent);
          done := done + a.sent;
        }
      }
      return Ok(());
    }

    /** `applyIstioCRDs`; `crds` is what `getCRDsYAML` returns. */
    method ApplyIstioCrds(codec: Codec, crds: Result<seq<Manifest>>, delete: bool) returns (r: Result<()>)
      modifies api
      ensures crds.Err? ==> api.State() == old(api.State()) && api.log == old(api.log) && r == Err(crds.error)
      ensures crds.Ok? ==> Matches(api, old(api.log), ApplyCrds(old(api.State()), connected, codec, crds.value, delete), r)
    {
      if crds.Err? {
        return Err(crds.error);
      }
      var all := crds.value;
      ghost var goal := ApplyCrds(api.State(), connected, codec, all, delete);
      ghost var log0 := api.log;
      ghost var done: seq<Request> := [];
      for i := 0 to |all|
        invariant After(done, ApplyCrds(api.State(), connected, codec, all[i..], delete)) == goal
        invariant api.log == log0 + done
      {
        assert all[i..][1..] == all[i + 1..];
        ghost var a := Reconcile.ApplyConfigChange(api.State(), connected, codec, all[i], "", delete, false);
        r := ApplyConfigChange(codec, all[i], "", delete, false);
        Regroup(log0, done, a.sent);
        if r.Err? {
          return;
        }
        Regroup(done, a.sent, ApplyCrds(api.State(), connected, codec, all[i + 1..], delete).sent);
        done := done + a.sent;
      }
      return Ok(());
    }

    /** `createNamespace`; `template` is what `executeTemplate` renders. */
    method CreateNamespace(codec: Codec, namespace: string, template: Result<Manifest>) returns (r: Result<()>)
      modifies api
      ensures Matches(api, old(api.log), Reconcile.CreateNamespace(old(api.State()), connected, codec, namespace, template), r)
    {
      if template.Err? {
        return Err(template.error);
      }
      r := ApplyConfigChange(codec, template.value, namespace, false, false);
    }

    /** `labelNamespaceForAutoInjection`. */
    method LabelNamespaceForAutoInjection(codec: Codec, namespace: string, template: Result<Manifest>) returns (r: Result<()>)
      modifies api
      ensures Matches(api, old(api.log), LabelNamespace(old(api.State()), connected, codec, namespace, template), r)
    {
      if !connected {
        return Err(Crash);
      }
      ghost var log0 := api.log;
      var probe := Named(namespace);
      ghost var g := Reconcile.GetResource(api.State(), NamespacesGvr, probe);
      var fetched := GetResource(NamespacesGvr, probe);
      ghost var done := g.sent;
      var ns: Document;
      if fetched.Ok? {
        ns := fetched.value;
      } else {
        if fetched.error != Api(NotFound) {
          return Err(fetched.error);
        }
        ghost var c := Reconcile.CreateNamespace(api.State(), connected, codec, namespace, template);
        r := CreateNamespace(codec, namespace, template);
        Regroup(log0, g.sent, c.sent);
        if r.Err? {
          return;
        }
        ghost var g2 := Reconcile.GetResource(api.State(), NamespacesGvr, probe);
        var again := GetResource(NamespacesGvr, probe);
        Regroup(log0, g.sent + c.sent, g2.sent);
        if again.Err? {
          return Err(again.error);
        }
        done := g.sent + c.sent + g2.sent;
        ns := probe;
      }
      ns := ns.(meta := ns.meta.(labels := InjectionLabels));
      ghost var u := Reconcile.UpdateResource(api.State(), NamespacesGvr, ns);
      r := UpdateResource(NamespacesGvr, ns);
      Regroup(log0, done, u.sent);
    }

    /** `executeInstall`; `crds` and `main` are what the manifest getters return. */
    method ExecuteInstall(codec: Codec, crds: Result<seq<Manifest>>, main: Result<Manifest>, delete: bool) returns (r: Result<()>)
      modifies api
      ensures Matches(api, old(api.log), Reconcile.ExecuteInstall(old(api.State()), connected, codec, crds, main, delete), r)
    {
      ghost var log0 := api.log;
      ghost var done: seq<Request> := [];
      if !delete {
        ghost var c := if crds.Err? then Step(api.State(), Err(crds.error), []) else ApplyCrds(api.State(), connected, codec, crds.value, false);
        r := ApplyIstioCrds(codec, crds, false);
        if r.Err? {
          return;
        }
        done := c.sent;
      }
      ghost var m := MainChange(api.State(), connected, codec, main, delete);
      if main.Err? {
        r := Err(main.error);
      } else {
        r := ApplyConfigChange(codec, main.value, "", delete, false);
      }
      Regroup(log0, done, m.sent);
      if delete {
        // the deferred CRD removal: its error is only logged, but a panic ends the call
        ghost var c := if crds.Err? then Step(api.State(), Err(crds.error), []) else ApplyCrds(api.State(), connected, codec, crds.value, true);
        var removed := ApplyIstioCrds(codec, crds, true);
        Regroup(log0, m.sent, c.sent);
        if crds.Ok? && removed == Err(Crash) {
          r := removed;
        }
      }
    }
  }
}

=== FILE: facts.dfy ===
/**
 * What the reconciler functions of module Reconcile promise, stated over the
 * requests they send and the objects they leave: the namespaced-then-cluster
 * fallback of each primitive, their answers on a store without faults, the
 * delete guards, the retry bound of the create step, and the order in which
 * the drivers apply documents.
 */
module Facts {
  import opened Resources
  import opened Locator
  import opened Reconcile

  /** The number of requests with verb `v`. */
  function CountVerb(reqs: seq<Request>, v: Verb): (n: nat)
    ensures n <= |reqs|
  {
    if reqs == [] then 0 else (if reqs[0].verb == v then 1 else 0) + CountVerb(reqs[1..], v)
  }

  lemma {:induction false} CountVerbAppend(a: seq<Request>, b: seq<Request>, v: Verb)
    ensures CountVerb(a + b, v) == CountVerb(a, v) + CountVerb(b, v)
    decreases |a|
  {
    if a == [] {
      assert a + b == b;
    } else {
      assert (a + b)[1..] == a[1..] + b;
      CountVerbAppend(a[1..], b, v);
    }
  }

  /** A primitive's requests: the namespaced call, possibly followed by the un-namespaced one. */
  predicate Fallback(reqs: seq<Request>, v: Verb, res: Gvr, d: Document)
  {
    || reqs == [Request(v, NsKey(res, d), d)]
    || reqs == [Request(v, NsKey(res, d), d), Request(v, ClusterKey(res, d), d)]
  }

  lemma FallbackCount(reqs: seq<Request>, v: Verb, res: Gvr, d: Document, w: Verb)
    requires Fallback(reqs, v, res, d)
    ensures CountVerb(reqs, w) == if w == v then |reqs| else 0
  {
    if |reqs| == 2 {
      assert reqs[1..] == [reqs[1]];
    }
  }

  /** The objects outside `keys` are the same in both stores. */
  ghost predicate Untouched(s: Store, t: Store, keys: set<Key>)
  {
    forall k :: k !in keys ==> (k in s.objects <==> k in t.objects) && (k in s.objects ==> s.objects[k] == t.objects[k])
  }

  /** A call changes at most the object at its own address. */
  lemma CallFrame(s: Store, verb: Verb, k: Key, body: Document, keys: set<Key>)
    requires k.name == body.meta.name && k in keys
    ensures Untouched(s, Call(s, verb, k, body).store, keys)
  {
  }

  lemma UntouchedChain(s: Store, t: Store, u: Store, keys: set<Key>)
    requires Untouched(s, t, keys) && Untouched(t, u, keys)
    ensures Untouched(s, u, keys)
  {
  }

  /** The key holds an object the store can serve at that address. */
  predicate Present(s: Store, k: Key)
  {
    Reachable(s, k) && k in s.objects
  }

  // ---------------------------------------------------------------------
  // The primitives: namespaced call first, un-namespaced call second

  /**
   * `createResource` sends the un-namespaced call exactly when the namespaced
   * one was not tolerated, and then that second call decides the outcome; it
   * never fails with AlreadyExists and writes at most the two addresses of
   * the document.
   */
  lemma CreateFallback(s: Store, res: Gvr, d: Document)
    ensures var r := CreateResource(s, res, d);
      var a := Call(s, Create, NsKey(res, d), d);
      var b := Call(a.store, Create, ClusterKey(res, d), d);
      && Fallback(r.sent, Create, res, d)
      && (|r.sent| == 1 <==> Tolerated(a.result))
      && (|r.sent| == 1 ==> r.result == Ok(()) && r.store == a.store)
      && (|r.sent| == 2 ==>
            && r.store == b.store
            && (r.result.Ok? <==> Tolerated(b.result))
            && (r.result.Err? ==> r.result.error == b.result.error))
      && (r.result.Err? ==> r.result.error != Api(AlreadyExists))
      && Untouched(s, r.store, {NsKey(res, d), ClusterKey(res, d)})
  {
    var keys := {NsKey(res, d), ClusterKey(res, d)};
    var a := Call(s, Create, NsKey(res, d), d);
    CallFrame(s, Create, NsKey(res, d), d, keys);
    if !Tolerated(a.result) {
      var b := Call(a.store, Create, ClusterKey(res, d), d);
      CallFrame(a.store, Create, ClusterKey(res, d), d, keys);
      UntouchedChain(s, a.store, b.store, keys);
    }
  }

  /**
   * `getResource` sends the un-namespaced call exactly when the namespaced
   * one failed, and then answers what that second call answered; it changes
   * no object.
   */
  lemma GetFallback(s: Store, res: Gvr, d: Document)
    ensures var r := GetResource(s, res, d);
      var a := Call(s, Get, NsKey(res, d), d);
      var b := Call(a.store, Get, ClusterKey(res, d), d);
      && Fallback(r.sent, Get, res, d)
      && (|r.sent| == 1 <==> a.result.Ok?)
      && (|r.sent| == 1 ==> r.result == a.result && r.store == a.store)
      && (|r.sent| == 2 ==> r.result == b.result && r.store == b.store)
      && r.store.objects == s.objects
  {
  }

  /**
   * `updateResource` sends the un-namespaced call exactly when the namespaced
   * one failed with anything but MethodNotAllowed, and then that second call
   * decides the outcome; it writes at most the two addresses of the document.
   */
  lemma UpdateFallback(s: Store, res: Gvr, d: Document)
    ensures var r := UpdateResource(s, res, d);
      var a := Call(s, Update, NsKey(res, d), d);
      var b := Call(a.store, Update, ClusterKey(res, d), d);
      && Fallback(r.sent, Update, res, d)
      && (|r.sent| == 1 <==> a.result.Ok? || a.result.error == Api(MethodNotAllowed))
      && (|r.sent| == 1 ==>
            && r.store == a.store
            && (r.result.Ok? <==> a.result.Ok?)
            && (r.result.Err? ==> r.result.error == Api(MethodNotAllowed)))
      && (|r.sent| == 2 ==>
            && r.store == b.store
            && (r.result.Ok? <==> b.result.Ok?)
            && (r.result.Err? ==> r.result.error == b.result.error))
      && Untouched(s, r.store, {NsKey(res, d), ClusterKey(res, d)})
  {
    var keys := {NsKey(res, d), ClusterKey(res, d)};
    var a := Call(s, Update, NsKey(res, d), d);
    CallFrame(s, Update, NsKey(res, d), d, keys);
    if a.result.Err? && a.result.error != Api(MethodNotAllowed) {
      var b := Call(a.store, Update, ClusterKey(res, d), d);
      CallFrame(a.store, Update, ClusterKey(res, d), d, keys);
      UntouchedChain(s, a.store, b.store, keys);
    }
  }

  /**
   * The delete calls send the un-namespaced call exactly when the namespaced
   * one failed, and then that second call decides the outcome.
   */
  lemma DeleteCallsFallback(s: Store, res: Gvr, d: Document)
    ensures var r := DeleteCalls(s, res, d);
      var a := Call(s, Delete, NsKey(res, d), d);
      var b := Call(a.store, Delete, ClusterKey(res, d), d);
      && Fallback(r.sent, Delete, res, d)
      && (|r.sent| == 1 <==> a.result.Ok?)
      && (|r.sent| == 1 ==> r.result == Ok(()) && r.store == a.store)
      && (|r.sent| == 2 ==>
            && r.store == b.store
            && (r.result.Ok? <==> b.result.Ok?)
            && (r.result.Err? ==> r.result.error == b.result.error))
      && Untouched(s, r.store, {NsKey(res, d), ClusterKey(res, d)})
  {
    var keys := {NsKey(res, d), ClusterKey(res, d)};
    var a := Call(s, Delete, NsKey(res, d), d);
    CallFrame(s, Delete, NsKey(res, d), d, keys);
    if a.result.Err? {
      var b := Call(a.store, Delete, ClusterKey(res, d), d);
      CallFrame(a.store, Delete, ClusterKey(res, d), d, keys);
      UntouchedChain(s, a.store, b.store, keys);
    }
  }

  /**
   * The objects a create without faults leaves: the document at `k`, unless
   * an object is already there, which is then kept as it is.
   */
  function CreatedAt(s: Store, k: Key, d: Document): map<Key, Document>
  {
    if k in s.objects then s.objects else s.objects[k := d]
  }

  /**
   * Without faults, a create succeeds. A namespaced address the store can
   * serve takes the document with one request; otherwise (a cluster-scoped
   * type addressed with a namespace) the un-namespaced address takes it with
   * a second request. An object already at the address that takes the
   * document is kept as it is: AlreadyExists counts as success.
   */
  lemma CreateQuiet(s: Store, res: Gvr, d: Document)
    requires s.faults == []
    ensures var r := CreateResource(s, res, d);
      && r.result == Ok(())
      && r.store.faults == []
      && |r.sent| == (if Reachable(s, NsKey(res, d)) then 1 else 2)
      && r.store.objects ==
           if Reachable(s, NsKey(res, d)) then CreatedAt(s, NsKey(res, d), d)
           else CreatedAt(s, ClusterKey(res, d), d)
  {
  }

  /** Without faults, a get answers the namespaced object, else the un-namespaced one, else NotFound. */
  lemma GetQuiet(s: Store, res: Gvr, d: Document)
    requires s.faults == []
    ensures var r := GetResource(s, res, d);
      && r.store.faults == []
      && (if Present(s, NsKey(res, d)) then r.result == Ok(s.objects[NsKey(res, d)])
          else if ClusterKey(res, d) in s.objects then r.result == Ok(s.objects[ClusterKey(res, d)])
          else r.result == Err(Api(NotFound)))
  {
  }

  /** Without faults, an update replaces the namespaced object, else the un-namespaced one, else fails with NotFound. */
  lemma UpdateQuiet(s: Store, res: Gvr, d: Document)
    requires s.faults == []
    ensures var r := UpdateResource(s, res, d);
      && r.store.faults == []
      && (if Present(s, NsKey(res, d)) then
            r.result == Ok(()) && r.store.objects == s.objects[NsKey(res, d) := d]
          else if ClusterKey(res, d) in s.objects then
            r.result == Ok(()) && r.store.objects == s.objects[ClusterKey(res, d) := d]
          else r.result == Err(Api(NotFound)) && r.store.objects == s.objects)
  {
  }

  /** Without faults, the delete calls remove the namespaced object, else the un-namespaced one, else fail with NotFound. */
  lemma DeleteCallsQuiet(s: Store, res: Gvr, d: Document)
    requires s.faults == []
    ensures var r := DeleteCalls(s, res, d);
      && r.store.faults == []
      && (if Present(s, NsKey(res, d)) then
            r.result == Ok(()) && r.store.objects == s.objects - {NsKey(res, d)}
          else if ClusterKey(res, d) in s.objects then
            r.result == Ok(()) && r.store.objects == s.objects - {ClusterKey(res, d)}
          else r.result == Err(Api(NotFound)) && r.store.objects == s.objects)
  {
  }

  // ---------------------------------------------------------------------
  // The delete guards

  /** Deleting the namespace named default succeeds and sends nothing. */
  lemma DefaultNamespaceKept(s: Store, res: Gvr, d: Document)
    requires res.resource == "namespaces" && d.meta.name == "default"
    ensures DeleteResource(s, true, res, d) == Step(s, Ok(()), [])
  {
  }

  /** A spec whose replicas field is zero. */
  predicate ZeroReplicas(d: Document)
  {
    d.spec.Mapping? && "replicas" in d.spec.fields && d.spec.fields["replicas"] == Num(0)
  }

  /**
   * A deleted deployment is first fetched and written back with zero
   * replicas: a delete request is sent only after such an update.
   */
  lemma {:induction false} DeploymentScaledFirst(s: Store, res: Gvr, d: Document)
    requires res.resource == "deployments"
    ensures var sent := DeleteResource(s, true, res, d).sent;
      CountVerb(sent, Delete) > 0 ==>
        exists j :: 0 <= j < |sent| && sent[j].verb == Update && ZeroReplicas(sent[j].body)
          && CountVerb(sent[..j], Delete) == 0
  {
    var r := DeleteResource(s, true, res, d);
    var g := GetResource(s, res, d);
    assert CountVerb(g.sent, Delete) == 0 by {
      GetFallback(s, res, d);
      FallbackCount(g.sent, Get, res, d, Delete);
    }
    if g.result.Err? || !g.result.value.spec.Mapping? {
      assert r.sent == g.sent;
      return;
    }
    var scaled := ScaledToZero(g.result.value);
    var u := UpdateResource(g.store, res, scaled);
    UpdateFallback(g.store, res, scaled);
    if u.result.Err? {
      assert CountVerb(r.sent, Delete) == 0 by {
        FallbackCount(u.sent, Update, res, scaled, Delete);
        CountVerbAppend(g.sent, u.sent, Delete);
      }
      return;
    }
    var x := DeleteCalls(u.store, res, d);
    var j := |g.sent|;
    assert r.sent == g.sent + u.sent + x.sent;
    assert r.sent[..j] == g.sent;
    assert r.sent[j] == u.sent[0];
  }

  /**
   * A failed fetch, a fetched spec that is not a mapping (a panic in the Go
   * code) or a failed write-back ends the delete of a deployment with
   * that error, before any delete request.
   */
  lemma DeploymentDeleteAborts(s: Store, res: Gvr, d: Document)
    requires res.resource == "deployments"
    ensures var r := DeleteResource(s, true, res, d);
      var g := GetResource(s, res, d);
      && (g.result.Err? ==> r == Step(g.store, Err(g.result.error), g.sent))
      && (g.result.Ok? && !g.result.value.spec.Mapping? ==> r == Step(g.store, Err(Crash), g.sent))
      && (g.result.Ok? && g.result.value.spec.Mapping? ==>
            var u := UpdateResource(g.store, res, ScaledToZero(g.result.value));
            u.result.Err? ==> r == After(g.sent, u))
  {
  }

  // ---------------------------------------------------------------------
  // The create step of executeRule

  /** Every primitive but create sends no create request. */
  lemma {:induction false} DeleteSendsNoCreate(s: Store, connected: bool, res: Gvr, d: Document)
    ensures CountVerb(DeleteResource(s, connected, res, d).sent, Create) == 0
  {
    var r := DeleteResource(s, connected, res, d);
    if !connected || (res.resource == "namespaces" && d.meta.name == "default") {
      assert r.sent == [];
    } else if res.resource == "deployments" {
      var g := GetResource(s, res, d);
      GetFallback(s, res, d);
      FallbackCount(g.sent, Get, res, d, Create);
      if g.result.Err? || !g.result.value.spec.Mapping? {
        assert r.sent == g.sent;
      } else {
        var scaled := ScaledToZero(g.result.value);
        var u := UpdateResource(g.store, res, scaled);
        UpdateFallback(g.store, res, scaled);
        FallbackCount(u.sent, Update, res, scaled, Create);
        CountVerbAppend(g.sent, u.sent, Create);
        if u.result.Ok? {
          var x := DeleteCalls(u.store, res, d);
          DeleteCallsFallback(u.store, res, d);
          FallbackCount(x.sent, Delete, res, d, Create);
          CountVerbAppend(g.sent + u.sent, x.sent, Create);
        }
      }
    } else {
      DeleteCallsFallback(s, res, d);
      FallbackCount(r.sent, Delete, res, d, Create);
    }
  }

  /** The requests a pass of the create step sent. */
  function PassSent(o: Outcome): seq<Request>
  {
    if o.Finished? then o.step.sent else o.sent
  }

  /** One pass of the create step sends at most two create requests, and exactly two when it is refused. */
  lemma PassCreates(s: Store, connected: bool, res: Gvr, d: Document)
    ensures var o := CreatePass(s, connected, res, d, false);
      && CountVerb(PassSent(o), Create) <= 2
      && (o.Refused? ==> CountVerb(PassSent(o), Create) == 2)
  {
    var o := CreatePass(s, connected, res, d, false);
    var c := CreateResource(s, res, d);
    var k := CountVerb(c.sent, Create);
    assert k <= 2 && (c.result.Err? ==> k == 2) by {
      CreateFallback(s, res, d);
      FallbackCount(c.sent, Create, res, d, Create);
    }
    if c.result.Ok? {
      assert PassSent(o) == c.sent;
      return;
    }
    var g := GetResource(c.store, res, d);
    assert CountVerb(c.sent + g.sent, Create) == k by {
      GetFallback(c.store, res, d);
      FallbackCount(g.sent, Get, res, d, Create);
      CountVerbAppend(c.sent, g.sent, Create);
    }
    if g.result.Err? {
      assert PassSent(o) == c.sent + g.sent;
      return;
    }
    var d' := CopyIdentity(d, g.result.value);
    var u := UpdateResource(g.store, res, d');
    assert CountVerb(c.sent + g.sent + u.sent, Create) == k by {
      UpdateFallback(g.store, res, d');
      FallbackCount(u.sent, Update, res, d', Create);
      CountVerbAppend(c.sent + g.sent, u.sent, Create);
    }
    if u.result.Ok? || u.result.error != Api(MethodNotAllowed) {
      assert PassSent(o) == c.sent + g.sent + u.sent;
      return;
    }
    var x := DeleteResource(u.store, connected, res, d');
    assert PassSent(o) == c.sent + g.sent + u.sent + x.sent;
    DeleteSendsNoCreate(u.store, connected, res, d');
    CountVerbAppend(c.sent + g.sent + u.sent, x.sent, Create);
  }

  /**
   * The create step makes at most 4 create attempts from a fresh start (one
   * per pass, at most 3 retries), each at most two create requests.
   */
  lemma {:induction false} RetryCreateBound(s: Store, connected: bool, res: Gvr, d: Document, tries: nat)
    requires tries <= MaxRetries
    ensures CountVerb(Attempt(s, connected, res, d, false, tries).sent, Create) <= 2 * (MaxRetries + 1 - tries)
    decreases MaxRetries - tries
  {
    var o := CreatePass(s, connected, res, d, false);
    if o.Refused? && tries + 1 <= MaxRetries {
      RetryCreateBound(o.store, connected, res, o.data, tries + 1);
    }
    PassBound(s, connected, res, d, tries);
  }

  /** The bound for one pass, given the bound for the passes after it. */
  lemma PassBound(s: Store, connected: bool, res: Gvr, d: Document, tries: nat)
    requires tries <= MaxRetries
    requires var o := CreatePass(s, connected, res, d, false);
      o.Refused? && tries + 1 <= MaxRetries ==>
        CountVerb(Attempt(o.store, connected, res, o.data, false, tries + 1).sent, Create) <= 2 * (MaxRetries + 1 - (tries + 1))
    ensures CountVerb(Attempt(s, connected, res, d, false, tries).sent, Create) <= 2 * (MaxRetries + 1 - tries)
  {
    var o := CreatePass(s, connected, res, d, false);
    if o.Refused? && tries + 1 <= MaxRetries {
      RetryCreateStep(s, connected, res, d, tries);
    } else {
      PassCreates(s, connected, res, d);
    }
  }

  /** A pass that jumps back adds its create requests to those of the next passes. */
  lemma RetryCreateStep(s: Store, connected: bool, res: Gvr, d: Document, tries: nat)
    requires tries < MaxRetries
    requires CreatePass(s, connected, res, d, false).Refused?
    ensures var o := CreatePass(s, connected, res, d, false);
      var n := Attempt(o.store, connected, res, o.data, false, tries + 1);
      CountVerb(Attempt(s, connected, res, d, false, tries).sent, Create) == 2 + CountVerb(n.sent, Create)
  {
    var o := CreatePass(s, connected, res, d, false);
    var n := Attempt(o.store, connected, res, o.data, false, tries + 1);
    PassCreates(s, connected, res, d);
    CountVerbAppend(o.sent, n.sent, Create);
  }

  /** The custom path makes at most two create attempts: the first, and one after the delete. */
  lemma CustomCreateBound(s: Store, connected: bool, res: Gvr, d: Document, tries: nat)
    requires tries <= MaxRetries
    ensures CountVerb(Attempt(s, connected, res, d, true, tries).sent, Create) <= 4
  {
    var r := Attempt(s, connected, res, d, true, tries);
    var c := CreateResource(s, res, d);
    CreateFallback(s, res, d);
    FallbackCount(c.sent, Create, res, d, Create);
    if c.result.Err? {
      var x := DeleteResource(c.store, connected, res, d);
      DeleteSendsNoCreate(c.store, connected, res, d);
      CountVerbAppend(c.sent, x.sent, Create);
      if x.result.Ok? {
        var c2 := CreateResource(x.store, res, d);
        assert r.sent == c.sent + x.sent + c2.sent;
        CreateFallback(x.store, res, d);
        FallbackCount(c2.sent, Create, res, d, Create);
        CountVerbAppend(c.sent + x.sent, c2.sent, Create);
      } else {
        assert r.sent == c.sent + x.sent;
      }
    }
  }

  /**
   * The custom path never jumps back: after a failed create it deletes and
   * creates once more, and returns the delete's error or else the second
   * create's result, whatever retries were already spent.
   */
  lemma CustomPath(s: Store, connected: bool, res: Gvr, d: Document, tries: nat)
    requires tries <= MaxRetries
    requires CreateResource(s, res, d).result.Err?
    ensures var r := Attempt(s, connected, res, d, true, tries);
      var c := CreateResource(s, res, d);
      var x := DeleteResource(c.store, connected, res, d);
      && r == Attempt(s, connected, res, d, true, 0)
      && (x.result.Err? ==> r.result == x.result && CountVerb(r.sent, Create) == 2)
      && (x.result.Ok? ==> r.result == CreateResource(x.store, res, d).result && 3 <= CountVerb(r.sent, Create) <= 4)
  {
    var c := CreateResource(s, res, d);
    var x := DeleteResource(c.store, connected, res, d);
    CreateFallback(s, res, d);
    FallbackCount(c.sent, Create, res, d, Create);
    DeleteSendsNoCreate(c.store, connected, res, d);
    CountVerbAppend(c.sent, x.sent, Create);
    if x.result.Ok? {
      var c2 := CreateResource(x.store, res, d);
      CreateFallback(x.store, res, d);
      FallbackCount(c2.sent, Create, res, d, Create);
      CountVerbAppend(c.sent + x.sent, c2.sent, Create);
    }
  }

  /**
   * On the non-custom path a fetch that fails after a failed create ends the
   * step at once with the fetch's error: no update, no retry.
   */
  lemma FetchErrorReturned(s: Store, connected: bool, res: Gvr, d: Document, tries: nat)
    requires tries <= MaxRetries
    requires CreateResource(s, res, d).result.Err?
    requires GetResource(CreateResource(s, res, d).store, res, d).result.Err?
    ensures var r := Attempt(s, connected, res, d, false, tries);
      && r.result == Err(GetResource(CreateResource(s, res, d).store, res, d).result.error)
      && CountVerb(r.sent, Create) == 2 && CountVerb(r.sent, Update) == 0
  {
    var c := CreateResource(s, res, d);
    var g := GetResource(c.store, res, d);
    CreateFallback(s, res, d);
    FallbackCount(c.sent, Create, res, d, Create);
    FallbackCount(c.sent, Create, res, d, Update);
    GetFallback(c.store, res, d);
    FallbackCount(g.sent, Get, res, d, Create);
    FallbackCount(g.sent, Get, res, d, Update);
    CountVerbAppend(c.sent, g.sent, Create);
    CountVerbAppend(c.sent, g.sent, Update);
  }

  /**
   * On the non-custom path an update that fails with anything but
   * MethodNotAllowed ends the step at once with that error: no delete, no
   * retry.
   */
  lemma UpdateErrorReturned(s: Store, connected: bool, res: Gvr, d: Document, tries: nat)
    requires tries <= MaxRetries
    requires var c := CreateResource(s, res, d);
      var g := GetResource(c.store, res, d);
      && c.result.Err? && g.result.Ok?
      && var u := UpdateResource(g.store, res, CopyIdentity(d, g.result.value));
         u.result.Err? && u.result.error != Api(MethodNotAllowed)
    ensures var c := CreateResource(s, res, d);
      var g := GetResource(c.store, res, d);
      var u := UpdateResource(g.store, res, CopyIdentity(d, g.result.value));
      var r := Attempt(s, connected, res, d, false, tries);
      && r.result == u.result
      && CountVerb(r.sent, Create) == 2 && CountVerb(r.sent, Delete) == 0
  {
    var c := CreateResource(s, res, d);
    var g := GetResource(c.store, res, d);
    var d' := CopyIdentity(d, g.result.value);
    var u := UpdateResource(g.store, res, d');
    CreateFallback(s, res, d);
    FallbackCount(c.sent, Create, res, d, Create);
    FallbackCount(c.sent, Create, res, d, Delete);
    GetFallback(c.store, res, d);
    FallbackCount(g.sent, Get, res, d, Create);
    FallbackCount(g.sent, Get, res, d, Delete);
    UpdateFallback(g.store, res, d');
    FallbackCount(u.sent, Update, res, d', Create);
    FallbackCount(u.sent, Update, res, d', Delete);
    CountVerbAppend(c.sent, g.sent, Create);
    CountVerbAppend(c.sent, g.sent, Delete);
    CountVerbAppend(c.sent + g.sent, u.sent, Create);
    CountVerbAppend(c.sent + g.sent, u.sent, Delete);
  }

  /**
   * The faults of one pass that ends in a retry: both creates fail, the get
   * is answered by the store, the update is refused with MethodNotAllowed
   * and both delete calls fail.
   */
  const RefusalPass: seq<Option<ApiError>> :=
    [Some(Other), Some(Other), None, Some(MethodNotAllowed), Some(Other), Some(Other)]

  function Refusals(n: nat): (f: seq<Option<ApiError>>)
    ensures |f| == 6 * n
  {
    if n == 0 then [] else RefusalPass + Refusals(n - 1)
  }

  /** Both create calls failing with a non-AlreadyExists error fail the create. */
  lemma CreateRefused(s: Store, res: Gvr, d: Document)
    requires |s.faults| >= 2 && s.faults[0] == Some(Other) && s.faults[1] == Some(Other)
    ensures var c := CreateResource(s, res, d);
      && c.result == Err(Api(Other))
      && c.store.faults == s.faults[2..] && c.store.objects == s.objects
      && CountVerb(c.sent, Create) == 2
  {
    CreateFallback(s, res, d);
    FallbackCount(CreateResource(s, res, d).sent, Create, res, d, Create);
  }

  /** A get answered at the namespaced address returns the stored object. */
  lemma GetAnswered(s: Store, res: Gvr, d: Document)
    requires |s.faults| >= 1 && s.faults[0] == None && Present(s, NsKey(res, d))
    ensures var g := GetResource(s, res, d);
      && g.result == Ok(s.objects[NsKey(res, d)])
      && g.store.faults == s.faults[1..] && g.store.objects == s.objects
      && CountVerb(g.sent, Create) == 0
  {
    GetFallback(s, res, d);
    FallbackCount(GetResource(s, res, d).sent, Get, res, d, Create);
  }

  /** A namespaced update refused with MethodNotAllowed is not retried un-namespaced. */
  lemma UpdateRefused(s: Store, res: Gvr, d: Document)
    requires |s.faults| >= 1 && s.faults[0] == Some(MethodNotAllowed)
    ensures var u := UpdateResource(s, res, d);
      && u.result == Err(Api(MethodNotAllowed))
      && u.store.faults == s.faults[1..] && u.store.objects == s.objects
      && CountVerb(u.sent, Create) == 0
  {
    UpdateFallback(s, res, d);
    FallbackCount(UpdateResource(s, res, d).sent, Update, res, d, Create);
  }

  /** Both delete calls failing change no object (not a deployment, not a namespace). */
  lemma DeleteRefused(s: Store, res: Gvr, d: Document)
    requires |s.faults| >= 2 && s.faults[0] == Some(Other) && s.faults[1] == Some(Other)
    requires res.resource != "deployments" && res.resource != "namespaces"
    ensures var x := DeleteResource(s, true, res, d);
      && x.store.faults == s.faults[2..] && x.store.objects == s.objects
      && CountVerb(x.sent, Create) == 0
  {
    DeleteSendsNoCreate(s, true, res, d);
  }
  /** A pass that meets the faults of `RefusalPass` is refused and changes no object. */
  lemma RefusedPass(s: Store, res: Gvr, d: Document, rest: seq<Option<ApiError>>)
    requires s.faults == RefusalPass + rest
    requires Present(s, NsKey(res, d))
    requires res.resource != "deployments" && res.resource != "namespaces"
    ensures var o := CreatePass(s, true, res, d, false);
      && o.Refused?
      && o.store.faults == rest
      && o.store.objects == s.objects
      && NsKey(res, o.data) == NsKey(res, d)
  {
    var c := CreateResource(s, res, d);
    CreateRefused(s, res, d);
    assert c.store.faults == [None, Some(MethodNotAllowed), Some(Other), Some(Other)] + rest;
    var g := GetResource(c.store, res, d);
    GetAnswered(c.store, res, d);
    var d' := CopyIdentity(d, g.result.value);
    var u := UpdateResource(g.store, res, d');
    assert NsKey(res, d') == NsKey(res, d);
    UpdateRefused(g.store, res, d');
    var x := DeleteResource(u.store, true, res, d');
    DeleteRefused(u.store, res, d');
    assert x.store.faults == rest;
  }

  /**
   * A pass of the create step is refused exactly when both of its creates
   * fail, its fetch answers and the update of the refreshed document is
   * refused with MethodNotAllowed.
   */
  lemma RefusedExactly(s: Store, connected: bool, res: Gvr, d: Document)
    ensures var c := CreateResource(s, res, d);
      var g := GetResource(c.store, res, d);
      var d' := if g.result.Ok? then CopyIdentity(d, g.result.value) else d;
      var u := UpdateResource(g.store, res, d');
      CreatePass(s, connected, res, d, false).Refused? <==>
        && c.result.Err?
        && g.result.Ok?
        && u.result == Err(Api(MethodNotAllowed))
        && DeleteResource(u.store, connected, res, d').result != Err(Crash)
  {
  }

  /**
   * Every pass from the one entered with `tries` retries spent on is
   * refused, whatever the store and its fault script do otherwise.
   */
  predicate AlwaysRefused(s: Store, connected: bool, res: Gvr, d: Document, tries: nat)
    requires tries <= MaxRetries
  {
    RefusedPasses(s, connected, res, d, tries) == MaxRetries + 1 - tries
  }

  /**
   * How many passes in a row, from the one entered with `tries` retries
   * spent, are refused. A plain wrapper: contracts that mention it see the
   * recursion below unfolded at most once, never a whole pass.
   */
  function RefusedPasses(s: Store, connected: bool, res: Gvr, d: Document, tries: nat): nat
    requires tries <= MaxRetries
  {
    RefusedRun(s, connected, res, d, tries)
  }

  /**
   * The recursion behind RefusedPasses, one call away from the pass it
   * inspects, so that unfolding it once does not expand a pass.
   */
  function RefusedRun(s: Store, connected: bool, res: Gvr, d: Document, tries: nat): nat
    requires tries <= MaxRetries
    decreases MaxRetries - tries, 1
  {
    RunFrom(s, connected, res, d, tries)
  }

  /** A refused pass counts one and hands over to the next pass while the retry bound allows. */
  function RunFrom(s: Store, connected: bool, res: Gvr, d: Document, tries: nat): nat
    requires tries <= MaxRetries
    decreases MaxRetries - tries, 0
  {
    var o := CreatePass(s, connected, res, d, false);
    if !o.Refused? then 0
    else if tries < MaxRetries then 1 + RefusedRun(o.store, connected, res, o.data, tries + 1)
    else 1
  }

  /**
   * The create step of a rule with a built-in type, entered with `tries`
   * retries spent. A plain wrapper of Attempt, so that contracts stated with
   * it unfold Attempt once (to TakePass) and never expand a whole pass.
   */
  function Rest(s: Store, connected: bool, res: Gvr, d: Document, tries: nat): Step<()>
    requires tries <= MaxRetries
  {
    Attempt(s, connected, res, d, false, tries)
  }

  /**
   * The create step entered with `tries` retries spent gives up with the
   * update's MethodNotAllowed after one create attempt (two create
   * requests) per remaining pass.
   */
  predicate GivesUp(s: Store, connected: bool, res: Gvr, d: Document, tries: nat)
    requires tries <= MaxRetries
  {
    var r := Rest(s, connected, res, d, tries);
    && r.result == Err(Api(MethodNotAllowed))
    && CountVerb(r.sent, Create) == 2 * (MaxRetries + 1 - tries)
  }

  /**
   * An update refused with MethodNotAllowed on every pass exhausts the
   * retries: the step returns that error after the last pass, having made
   * one create attempt (two create requests) per pass.
   */
  lemma {:induction false} PersistentRefusal(s: Store, connected: bool, res: Gvr, d: Document, tries: nat)
    requires tries <= MaxRetries
    requires AlwaysRefused(s, connected, res, d, tries)
    ensures GivesUp(s, connected, res, d, tries)
    decreases MaxRetries - tries
  {
    if tries < MaxRetries {
      var t, e := GivesUpAgain(s, connected, res, d, tries);
      PersistentRefusal(t, connected, res, e, tries + 1);
      assert GivesUp(t, connected, res, e, tries + 1);
    } else {
      GivesUpLast(s, connected, res, d);
    }
  }

  /** The last pass, when refused, gives up. */
  lemma GivesUpLast(s: Store, connected: bool, res: Gvr, d: Document)
    requires AlwaysRefused(s, connected, res, d, MaxRetries)
    ensures GivesUp(s, connected, res, d, MaxRetries)
  {
    assert RefusedPasses(s, connected, res, d, MaxRetries) == RunFrom(s, connected, res, d, MaxRetries);
    RefusalLast(s, connected, res, d);
  }

  /**
   * When every pass is refused, the first one hands the store `t` and the
   * refreshed document `e` to a step that is refused on every pass too, and
   * if that step gives up, so does the whole one.
   */
  lemma GivesUpAgain(s: Store, connected: bool, res: Gvr, d: Document, tries: nat) returns (t: Store, e: Document)
    requires tries < MaxRetries
    requires AlwaysRefused(s, connected, res, d, tries)
    ensures AlwaysRefused(t, connected, res, e, tries + 1)
    ensures GivesUp(t, connected, res, e, tries + 1) ==> GivesUp(s, connected, res, d, tries)
  {
    assert RefusedPasses(s, connected, res, d, tries) == RunFrom(s, connected, res, d, tries);
    var sent;
    t, e, sent := RefusalAgain(s, connected, res, d, tries);
    CountVerbAppend(sent, Attempt(t, connected, res, e, false, tries + 1).sent, Create);
  }

  /**
   * A refused pass with retries left sends two create requests and jumps
   * back with the refreshed document `e`, on the store `t` the ignored
   * delete left; if every pass is refused, every later pass is too.
   */
  lemma RefusalAgain(s: Store, connected: bool, res: Gvr, d: Document, tries: nat)
    returns (t: Store, e: Document, sent: seq<Request>)
    requires tries < MaxRetries
    requires CreatePass(s, connected, res, d, false).Refused?
    ensures var o := CreatePass(s, connected, res, d, false); t == o.store && e == o.data && sent == o.sent
    ensures Attempt(s, connected, res, d, false, tries) == After(sent, Attempt(t, connected, res, e, false, tries + 1))
    ensures CountVerb(sent, Create) == 2
    ensures AlwaysRefused(s, connected, res, d, tries) ==> AlwaysRefused(t, connected, res, e, tries + 1)
  {
    PassCreates(s, connected, res, d);
    AttemptAgain(s, connected, res, d, false, tries);
    var o := CreatePass(s, connected, res, d, false);
    t, e, sent := o.store, o.data, o.sent;
    assert RefusedPasses(s, connected, res, d, tries) == RunFrom(s, connected, res, d, tries);
  }

  /** A refused pass after the last retry ends the step with the update's MethodNotAllowed error. */
  lemma RefusalLast(s: Store, connected: bool, res: Gvr, d: Document)
    requires CreatePass(s, connected, res, d, false).Refused?
    ensures var o := CreatePass(s, connected, res, d, false);
      && Attempt(s, connected, res, d, false, MaxRetries) == Step(o.store, Err(Api(MethodNotAllowed)), o.sent)
      && CountVerb(o.sent, Create) == 2
  {
    PassCreates(s, connected, res, d);
  }

  /**
   * The fault script made of `RefusalPass` once per remaining pass refuses
   * every pass of an object stored at its namespaced address, and the
   * ignored delete failures leave every stored object in place.
   */
  lemma {:induction false} ScriptedRefusal(s: Store, res: Gvr, d: Document, tries: nat, rest: seq<Option<ApiError>>)
    requires tries <= MaxRetries
    requires s.faults == Refusals(MaxRetries + 1 - tries) + rest
    requires Present(s, NsKey(res, d))
    requires res.resource != "deployments" && res.resource != "namespaces"
    ensures AlwaysRefused(s, true, res, d, tries)
    ensures var r := Rest(s, true, res, d, tries);
      r.store.faults == rest && r.store.objects == s.objects
    decreases MaxRetries - tries, 1
  {
    if tries < MaxRetries {
      ScriptedStep(s, res, d, tries, rest);
    } else {
      assert s.faults == RefusalPass + rest;
      ScriptedLast(s, res, d, rest);
    }
  }

  /** The scripted refused pass followed by the remaining scripted passes. */
  lemma {:induction false} ScriptedStep(s: Store, res: Gvr, d: Document, tries: nat, rest: seq<Option<ApiError>>)
    requires tries < MaxRetries
    requires s.faults == Refusals(MaxRetries + 1 - tries) + rest
    requires Present(s, NsKey(res, d))
    requires res.resource != "deployments" && res.resource != "namespaces"
    ensures AlwaysRefused(s, true, res, d, tries)
    ensures var r := Rest(s, true, res, d, tries);
      r.store.faults == rest && r.store.objects == s.objects
    decreases MaxRetries - tries, 0
  {
    var later := Refusals(MaxRetries - tries) + rest;
    assert s.faults == RefusalPass + later;
    var t, e := ScriptedAgain(s, res, d, tries, later);
    ScriptedRefusal(t, res, e, tries + 1, rest);
  }

  /**
   * A scripted pass with retries left is refused and jumps back on the store
   * `t`, which keeps every object and the rest of the script, with the
   * refreshed document `e`, whose namespaced address is still occupied.
   */
  lemma ScriptedAgain(s: Store, res: Gvr, d: Document, tries: nat, later: seq<Option<ApiError>>)
    returns (t: Store, e: Document)
    requires tries < MaxRetries
    requires s.faults == RefusalPass + later
    requires Present(s, NsKey(res, d))
    requires res.resource != "deployments" && res.resource != "namespaces"
    ensures t.faults == later && t.objects == s.objects && Present(t, NsKey(res, e))
    ensures RefusedPasses(s, true, res, d, tries) == 1 + RefusedPasses(t, true, res, e, tries + 1)
    ensures Rest(s, true, res, d, tries).store == Rest(t, true, res, e, tries + 1).store
  {
    RefusedPass(s, res, d, later);
    var o := CreatePass(s, true, res, d, false);
    t, e := o.store, o.data;
    assert RefusedPasses(s, true, res, d, tries) == RunFrom(s, true, res, d, tries);
    AttemptAgain(s, true, res, d, false, tries);
  }

  /** The last scripted pass is refused and the step ends on the store the ignored delete left. */
  lemma ScriptedLast(s: Store, res: Gvr, d: Document, rest: seq<Option<ApiError>>)
    requires s.faults == RefusalPass + rest
    requires Present(s, NsKey(res, d))
    requires res.resource != "deployments" && res.resource != "namespaces"
    ensures AlwaysRefused(s, true, res, d, MaxRetries)
    ensures var r := Rest(s, true, res, d, MaxRetries);
      r.store.faults == rest && r.store.objects == s.objects
  {
    RefusedPass(s, res, d, rest);
    assert RefusedPasses(s, true, res, d, MaxRetries) == RunFrom(s, true, res, d, MaxRetries);
    assert Rest(s, true, res, d, MaxRetries) == TakePass(s, true, res, d, false, MaxRetries);
  }

  /**
   * On a store without faults, applying a document succeeds with one create
   * request when its namespaced address can be served, and with two (the
   * un-namespaced fallback) for a cluster-scoped type stamped with a
   * namespace; an object already at the address that takes the document is
   * left as it is: the create's AlreadyExists counts as success, so no
   * update follows.
   */
  lemma ApplyQuiet(s: Store, connected: bool, d: Document, namespace: string, custom: bool)
    requires s.faults == []
    ensures var doc := StampNamespace(d, namespace);
      var res := ResourceFor(doc);
      var r := ApplyRule(s, connected, d, namespace, false, custom);
      && r.result == Ok(())
      && |r.sent| == (if Reachable(s, NsKey(res, doc)) then 1 else 2)
      && CountVerb(r.sent, Create) == |r.sent|
      && r.store.objects ==
           if Reachable(s, NsKey(res, doc)) then CreatedAt(s, NsKey(res, doc), doc)
           else CreatedAt(s, ClusterKey(res, doc), doc)
  {
    var doc := StampNamespace(d, namespace);
    var res := ResourceFor(doc);
    CreateQuiet(s, res, doc);
    CreateFallback(s, res, doc);
    FallbackCount(CreateResource(s, res, doc).sent, Create, res, doc, Create);
  }

  // ---------------------------------------------------------------------
  // The drivers

  /** A document whose JSON is at most 5 bytes long is skipped with success. */
  lemma NullDocumentSkipped(s: Store, codec: Codec, namespace: string, chunk: seq<byte>, delete: bool, custom: bool)
    requires codec.toJson(chunk).Some? && |codec.toJson(chunk).value| <= NullJsonLength
    ensures ApplyPayload(s, true, codec, namespace, chunk, delete, custom) == Step(s, Ok(()), [])
  {
  }

  /** List items run in order: the items of `a` first, and those of `b` only if all of `a` succeeded. */
  lemma {:induction false} ItemsCompose(s: Store, connected: bool, a: seq<Item>, b: seq<Item>, namespace: string, delete: bool, custom: bool)
    ensures ApplyItems(s, connected, a + b, namespace, delete, custom) ==
      var x := ApplyItems(s, connected, a, namespace, delete, custom);
      if x.result.Err? then x else After(x.sent, ApplyItems(x.store, connected, b, namespace, delete, custom))
    decreases |a|
  {
    if a == [] {
      assert a + b == b;
    } else {
      assert (a + b)[0] == a[0];
      assert (a + b)[1..] == a[1..] + b;
      if a[0].Object? {
        var y := ApplyRule(s, connected, a[0].doc, namespace, delete, custom);
        if y.result.Ok? {
          var x := ApplyItems(y.store, connected, a[1..], namespace, delete, custom);
          ItemsCompose(y.store, connected, a[1..], b, namespace, delete, custom);
          if x.result.Ok? {
            AfterAfter(y.sent, x.sent, ApplyItems(x.store, connected, b, namespace, delete, custom));
          }
        }
      }
    }
  }

  /** Two prefixes of requests in a row, regrouped. */
  lemma AfterAfter<T>(a: seq<Request>, b: seq<Request>, r: Step<T>)
    ensures After(a, After(b, r)) == After(a + b, r)
  {
    assert a + (b + r.sent) == a + b + r.sent;
  }

  /** The chunks that are not blank, in order. */
  function NonBlank(chunks: seq<seq<byte>>): (r: seq<seq<byte>>)
    ensures |r| <= |chunks|
    ensures forall i :: 0 <= i < |r| ==> !Blank(r[i]) && r[i] in chunks
  {
    if chunks == [] then []
    else if Blank(chunks[0]) then NonBlank(chunks[1..])
    else [chunks[0]] + NonBlank(chunks[1..])
  }

  /** Blank chunks change nothing: the chunks are applied as if only the non-blank ones were there. */
  lemma {:induction false} BlankChunksSkipped(s: Store, connected: bool, codec: Codec, chunks: seq<seq<byte>>, namespace: string, delete: bool, custom: bool)
    ensures ApplyChunks(s, connected, codec, chunks, namespace, delete, custom)
      == ApplyChunks(s, connected, codec, NonBlank(chunks), namespace, delete, custom)
    decreases |chunks|
  {
    if chunks != [] {
      if Blank(chunks[0]) {
        BlankChunksSkipped(s, connected, codec, chunks[1..], namespace, delete, custom);
      } else {
        var live := NonBlank(chunks);
        assert live[0] == chunks[0] && live[1..] == NonBlank(chunks[1..]);
        var a := ApplyPayload(s, connected, codec, namespace, chunks[0], delete, custom);
        BlankChunksSkipped(a.store, connected, codec, chunks[1..], namespace, delete, custom);
      }
    }
  }

  /**
   * In delete mode only the first non-blank chunk is applied: the loop
   * returns right after it, so the documents after it are never deleted.
   */
  lemma {:induction false} DeleteOnlyFirst(s: Store, connected: bool, codec: Codec, chunks: seq<seq<byte>>, namespace: string, custom: bool)
    ensures var live := NonBlank(chunks);
      ApplyChunks(s, connected, codec, chunks, namespace, true, custom) ==
        if live == [] then Step(s, Ok(()), [])
        else ApplyPayload(s, connected, codec, namespace, live[0], true, custom)
  {
    BlankChunksSkipped(s, connected, codec, chunks, namespace, true, custom);
    var live := NonBlank(chunks);
    if live != [] {
      var a := ApplyPayload(s, connected, codec, namespace, live[0], true, custom);
      assert !Blank(live[0]);
      assert ApplyChunks(s, connected, codec, live, namespace, true, custom)
        == if a.result.Err? then a else Step(a.store, Ok(()), a.sent);
      if a.result.Ok? {
        assert a.result.value == ();
        assert a == Step(a.store, Ok(()), a.sent);
      }
    }
  }

  /** In apply mode the chunks of `a` run first, and those of `b` only if all of `a` succeeded. */
  lemma {:induction false} ChunksCompose(s: Store, connected: bool, codec: Codec, a: seq<seq<byte>>, b: seq<seq<byte>>, namespace: string, custom: bool)
    ensures ApplyChunks(s, connected, codec, a + b, namespace, false, custom) ==
      var x := ApplyChunks(s, connected, codec, a, namespace, false, custom);
      if x.result.Err? then x else After(x.sent, ApplyChunks(x.store, connected, codec, b, namespace, false, custom))
    decreases |a|
  {
    if a == [] {
      assert a + b == b;
    } else {
      assert (a + b)[0] == a[0];
      assert (a + b)[1..] == a[1..] + b;
      if Blank(a[0]) {
        ChunksCompose(s, connected, codec, a[1..], b, namespace, custom);
      } else {
        var y := ApplyPayload(s, connected, codec, namespace, a[0], false, custom);
        if y.result.Ok? {
          var x := ApplyChunks(y.store, connected, codec, a[1..], namespace, false, custom);
          ChunksCompose(y.store, connected, codec, a[1..], b, namespace, custom);
          if x.result.Ok? {
            AfterAfter(y.sent, x.sent, ApplyChunks(x.store, connected, codec, b, namespace, false, custom));
          }
        }
      }
    }
  }

  /** The CRD manifests run in order, the later ones only if the earlier ones all succeeded. */
  lemma {:induction false} CrdsCompose(s: Store, connected: bool, codec: Codec, a: seq<Manifest>, b: seq<Manifest>, delete: bool)
    ensures ApplyCrds(s, connected, codec, a + b, delete) ==
      var x := ApplyCrds(s, connected, codec, a, delete);
      if x.result.Err? then x else After(x.sent, ApplyCrds(x.store, connected, codec, b, delete))
    decreases |a|, 1
  {
    if a == [] {
      assert a + b == b;
    } else {
      CrdsComposeStep(s, connected, codec, a, b, delete);
    }
  }

  lemma {:induction false} CrdsComposeStep(s: Store, connected: bool, codec: Codec, a: seq<Manifest>, b: seq<Manifest>, delete: bool)
    requires a != []
    ensures ApplyCrds(s, connected, codec, a + b, delete) ==
      var x := ApplyCrds(s, connected, codec, a, delete);
      if x.result.Err? then x else After(x.sent, ApplyCrds(x.store, connected, codec, b, delete))
    decreases |a|, 0
  {
    assert (a + b)[0] == a[0];
    assert (a + b)[1..] == a[1..] + b;
    var y := ApplyConfigChange(s, connected, codec, a[0], "", delete, false);
    if y.result.Ok? {
      var x := ApplyCrds(y.store, connected, codec, a[1..], delete);
      CrdsCompose(y.store, connected, codec, a[1..], b, delete);
      if x.result.Ok? {
        AfterAfter(y.sent, x.sent, ApplyCrds(x.store, connected, codec, b, delete));
      }
    }
  }

  // ---------------------------------------------------------------------
  // The compositions

  /**
   * When labelling succeeds its last request writes the namespace object
   * with the injection label as its only label.
   */
  lemma {:induction false} InjectionLabelWritten(s: Store, connected: bool, codec: Codec, namespace: string, template: Result<Manifest>)
    requires WellKeyed(s)
    ensures var r := LabelNamespace(s, connected, codec, namespace, template);
      var sent := r.sent;
      r.result.Ok? ==>
        && |sent| > 0
        && sent[|sent| - 1].verb == Update
        && sent[|sent| - 1].key.gvr == NamespacesGvr
        && sent[|sent| - 1].body.meta.name == namespace
        && sent[|sent| - 1].body.meta.labels == InjectionLabels
  {
    if connected {
      var g := GetResource(s, NamespacesGvr, Named(namespace));
      if g.result.Ok? {
        LabelExisting(s, codec, namespace, template);
      } else {
        LabelCreated(s, codec, namespace, template);
      }
    }
  }

  /** The requests end with the update that writes the injection label on the namespace. */
  predicate LabelSent(sent: seq<Request>, namespace: string)
  {
    && |sent| > 0
    && sent[|sent| - 1].verb == Update
    && sent[|sent| - 1].key.gvr == NamespacesGvr
    && sent[|sent| - 1].body.meta.name == namespace
    && sent[|sent| - 1].body.meta.labels == InjectionLabels
  }

  lemma LabelUpdate(s: Store, prefix: seq<Request>, body: Document, namespace: string)
    requires body.meta.name == namespace && body.meta.labels == InjectionLabels
    ensures LabelSent(prefix + UpdateResource(s, NamespacesGvr, body).sent, namespace)
  {
    var u := UpdateResource(s, NamespacesGvr, body);
    UpdateFallback(s, NamespacesGvr, body);
    assert (prefix + u.sent)[|prefix + u.sent| - 1] == u.sent[|u.sent| - 1];
  }

  /** A namespace found at the first fetch is relabelled in place. */
  lemma LabelExisting(s: Store, codec: Codec, namespace: string, template: Result<Manifest>)
    requires WellKeyed(s)
    requires GetResource(s, NamespacesGvr, Named(namespace)).result.Ok?
    ensures var r := LabelNamespace(s, true, codec, namespace, template);
      r.result.Ok? ==> LabelSent(r.sent, namespace)
  {
    var g := GetResource(s, NamespacesGvr, Named(namespace));
    GetFallback(s, NamespacesGvr, Named(namespace));
    var k := g.sent[|g.sent| - 1].key;
    assert g.result.value == g.store.objects[k] && k.name == namespace;
    LabelUpdate(g.store, g.sent, WithInjectionLabel(g.result.value), namespace);
  }

  /** A namespace missing at the first fetch is created, fetched again and labelled. */
  lemma LabelCreated(s: Store, codec: Codec, namespace: string, template: Result<Manifest>)
    requires !GetResource(s, NamespacesGvr, Named(namespace)).result.Ok?
    ensures var r := LabelNamespace(s, true, codec, namespace, template);
      r.result.Ok? ==> LabelSent(r.sent, namespace)
  {
    var probe := Named(namespace);
    var g := GetResource(s, NamespacesGvr, probe);
    var c := CreateNamespace(g.store, true, codec, namespace, template);
    var g2 := GetResource(c.store, NamespacesGvr, probe);
    LabelUpdate(g2.store, g.sent + c.sent + g2.sent, WithInjectionLabel(probe), namespace);
  }

  /**
   * Removal sends the main manifest's requests first and the deferred CRD
   * requests after them, and returns the main manifest's result whatever
   * the CRD removal does, unless the CRD removal panicked (`Crash`).
   */
  lemma RemovalIgnoresCrds(s: Store, connected: bool, codec: Codec, crds: Result<seq<Manifest>>, main: Result<Manifest>)
    ensures var r := ExecuteInstall(s, connected, codec, crds, main, true);
      var m := MainChange(s, connected, codec, main, true);
      && |m.sent| <= |r.sent| && r.sent[..|m.sent|] == m.sent
      && (crds.Err? ==> r == m)
      && (crds.Ok? ==>
            var c := ApplyCrds(m.store, connected, codec, crds.value, true);
            && r.sent[|m.sent|..] == c.sent
            && r.store == c.store
            && (c.result != Err(Crash) ==> r.result == m.result)
            && (c.result == Err(Crash) ==> r.result == Err(Crash)))
  {
    var m := MainChange(s, connected, codec, main, true);
    var r := ExecuteInstall(s, connected, codec, crds, main, true);
    if crds.Ok? {
      var c := ApplyCrds(m.store, connected, codec, crds.value, true);
      assert r.sent == m.sent + c.sent;
      assert r.sent[..|m.sent|] == m.sent;
    }
  }

  /**
   * Install sends the CRD requests first: a failure among them ends the
   * install before any request for the main manifest, and otherwise the
   * main manifest's requests follow them and decide the result.
   */
  lemma InstallCrdsFirst(s: Store, connected: bool, codec: Codec, crds: seq<Manifest>, main: Result<Manifest>)
    ensures var r := ExecuteInstall(s, connected, codec, Ok(crds), main, false);
      var c := ApplyCrds(s, connected, codec, crds, false);
      var m := MainChange(c.store, connected, codec, main, false);
      && |c.sent| <= |r.sent| && r.sent[..|c.sent|] == c.sent
      && (c.result.Err? ==> r == c)
      && (c.result.Ok? ==> r.sent[|c.sent|..] == m.sent && r.result == m.result && r.store == m.store)
  {
    var c := ApplyCrds(s, connected, codec, crds, false);
    var r := ExecuteInstall(s, connected, codec, Ok(crds), main, false);
    assert r.sent[..|c.sent|] == c.sent;
  }

  /** Install with no CRD manifests at hand fails before any request. */
  lemma InstallNeedsCrds(s: Store, connected: bool, codec: Codec, crds: Result<seq<Manifest>>, main: Result<Manifest>)
    requires crds.Err?
    ensures ExecuteInstall(s, connected, codec, crds, main, false) == Step(s, Err(crds.error), [])
  {
  }

  // ---------------------------------------------------------------------
  // Stored objects stay under their own names

  /** A call stores a body only under the body's own name. */
  lemma CallKeepsWellKeyed(s: Store, verb: Verb, k: Key, body: Document)
    requires k.name == body.meta.name
    requires WellKeyed(s)
    ensures WellKeyed(Call(s, verb, k, body).store)
  {
  }

  /** Every primitive keeps the stored objects under their own names. */
  lemma PrimitivesKeepWellKeyed(s: Store, connected: bool, res: Gvr, d: Document)
    requires WellKeyed(s)
    ensures WellKeyed(CreateResource(s, res, d).store)
    ensures WellKeyed(GetResource(s, res, d).store)
    ensures WellKeyed(UpdateResource(s, res, d).store)
    ensures WellKeyed(DeleteResource(s, connected, res, d).store)
  {
    var a := Call(s, Create, NsKey(res, d), d);
    CallKeepsWellKeyed(s, Create, NsKey(res, d), d);
    CallKeepsWellKeyed(a.store, Create, ClusterKey(res, d), d);
    var u := Call(s, Update, NsKey(res, d), d);
    CallKeepsWellKeyed(s, Update, NsKey(res, d), d);
    CallKeepsWellKeyed(u.store, Update, ClusterKey(res, d), d);
    GetFallback(s, res, d);
    DeleteKeepsWellKeyed(s, connected, res, d);
  }

  lemma DeleteKeepsWellKeyed(s: Store, connected: bool, res: Gvr, d: Document)
    requires WellKeyed(s)
    ensures WellKeyed(DeleteResource(s, connected, res, d).store)
  {
    if connected && !(res.resource == "namespaces" && d.meta.name == "default") {
      var t := s;
      if res.resource == "deployments" {
        var g := GetResource(s, res, d);
        GetFallback(s, res, d);
        if g.result.Err? || !g.result.value.spec.Mapping? {
          return;
        }
        var scaled := ScaledToZero(g.result.value);
        var u := UpdateResource(g.store, res, scaled);
        var a := Call(g.store, Update, NsKey(res, scaled), scaled);
        CallKeepsWellKeyed(g.store, Update, NsKey(res, scaled), scaled);
        CallKeepsWellKeyed(a.store, Update, ClusterKey(res, scaled), scaled);
        if u.result.Err? {
          return;
        }
        t := u.store;
      }
      var x := Call(t, Delete, NsKey(res, d), d);
      CallKeepsWellKeyed(t, Delete, NsKey(res, d), d);
      CallKeepsWellKeyed(x.store, Delete, ClusterKey(res, d), d);
    }
  }
}

=== FILE: locator.dfy ===
/**
 * The resource locator: the first half of `executeRule`. It stamps the target
 * namespace onto a document and resolves the document's apiVersion and kind to
 * the (group, version, resource) triple the dynamic client addresses.
 */
module Locator {
  import opened Resources

  /** Number of occurrences of `c` in `s`. */
  function Count(s: string, c: char): (n: nat)
    ensures n == 0 <==> c !in s
    ensures n <= |s|
  {
    if s == [] then 0
    else (if s[0] == c then 1 else 0) + Count(s[1..], c)
  }

  /** The parts joined back with the separator between them. */
  function Join(parts: seq<string>, sep: char): string
    requires |parts| >= 1
  {
    if |parts| == 1 then parts[0] else parts[0] + [sep] + Join(parts[1..], sep)
  }

  /**
   * Go's `strings.Split(s, sep)` for a one-character separator: the maximal
   * separator-free pieces, one more than there are separators, even for "".
   */
  function Split(s: string, sep: char): (parts: seq<string>)
    ensures |parts| == Count(s, sep) + 1
    ensures forall i :: 0 <= i < |parts| ==> sep !in parts[i]
    ensures Join(parts, sep) == s
  {
    if s == [] then [""]
    else
      var rest := Split(s[1..], sep);
      if s[0] == sep then [""] + rest
      else
        var parts := [[s[0]] + rest[0]] + rest[1..];
        assert parts[1..] == rest[1..];
        parts
  }

  /**
   * The group and version of an apiVersion: with exactly one "/" the two
   * sides, with none the empty group and the whole string as version, and
   * with more than one both empty.
   */
  function GroupVersion(apiVersion: string): (gv: (string, string))
    ensures Count(apiVersion, '/') == 0 ==> gv == ("", apiVersion)
    ensures Count(apiVersion, '/') == 1 ==>
      gv.0 + "/" + gv.1 == apiVersion && '/' !in gv.0 && '/' !in gv.1
    ensures Count(apiVersion, '/') >= 2 ==> gv == ("", "")
  {
    var parts := Split(apiVersion, '/');
    if |parts| == 2 then
      assert Join(parts[1..], '/') == parts[1];
      (parts[0], parts[1])
    else if |parts| == 1 then ("", parts[0])
    else ("", "")
  }

  predicate IsUpper(c: char) { 'A' <= c <= 'Z' }

  function LowerChar(c: char): (l: char)
    ensures !IsUpper(l)
  {
    if IsUpper(c) then (c as int + 32) as char else c
  }

  /** `strings.ToLower`, on the ASCII letters. */
  function ToLower(s: string): (l: string)
    ensures |l| == |s|
    ensures forall i :: 0 <= i < |s| ==> l[i] == LowerChar(s[i])
  {
    seq(|s|, i requires 0 <= i < |s| => LowerChar(s[i]))
  }

  /** The irregular plurals; every other lower-cased kind takes "s". */
  function Plural(kind: string): string
  {
    if kind == "logentry" then "logentries"
    else if kind == "kubernetes" then "kubernetes"
    else if kind == "podsecuritypolicy" then "podsecuritypolicies"
    else if kind == "serviceentry" then "serviceentries"
    else kind + "s"
  }

  /** The plural resource name of a kind; never empty and never upper-case. */
  function ResourceName(kind: string): (r: string)
    ensures r != []
    ensures forall i :: 0 <= i < |r| ==> !IsUpper(r[i])
  {
    Plural(ToLower(kind))
  }

  /**
   * Two distinct lower-cased kinds that the plural rules send to one resource
   * name: a kind in the table and its plural minus the final "s".
   */
  predicate Collide(a: string, b: string)
  {
    || (a == "logentry" && b == "logentrie")
    || (a == "kubernetes" && b == "kubernete")
    || (a == "podsecuritypolicy" && b == "podsecuritypolicie")
    || (a == "serviceentry" && b == "serviceentrie")
  }

  lemma AppendSInjective(a: string, b: string)
    requires a + "s" == b + "s"
    ensures a == b
  {
    assert a == (a + "s")[..|a|];
    assert b == (b + "s")[..|b|];
  }

  /**
   * The plural rules are injective except for the four table entries, each of
   * which shares its resource with the kind that spells its plural minus "s".
   */
  lemma {:induction false} PluralCollisions(a: string, b: string)
    requires a != b && Plural(a) == Plural(b)
    ensures Collide(a, b) || Collide(b, a)
  {
    var table := ["logentry", "kubernetes", "podsecuritypolicy", "serviceentry"];
    if a !in table && b !in table {
      AppendSInjective(a, b);
    } else if a in table && b !in table {
      AppendSInjective(b, Plural(a)[..|Plural(a)| - 1]);
    } else if b in table && a !in table {
      AppendSInjective(a, Plural(b)[..|Plural(b)| - 1]);
    }
  }

  /** `data.SetNamespace(namespace)` when the target namespace is not empty. */
  function StampNamespace(d: Document, namespace: string): (r: Document)
    ensures r.meta.namespace == if namespace != "" then namespace else d.meta.namespace
    ensures r.(meta := r.meta.(namespace := d.meta.namespace)) == d
  {
    if namespace != "" then d.(meta := d.meta.(namespace := namespace)) else d
  }

  /** The resource descriptor a document resolves to. */
  function ResourceFor(d: Document): (res: Gvr)
    ensures (res.group, res.version) == GroupVersion(d.apiVersion)
    ensures res.resource == ResourceName(d.kind)
    ensures Count(d.apiVersion, '/') == 0 ==> res.group == "" && res.version == d.apiVersion
    ensures Count(d.apiVersion, '/') == 1 ==>
      res.group + "/" + res.version == d.apiVersion && '/' !in res.group && '/' !in res.version
    ensures Count(d.apiVersion, '/') >= 2 ==> res.group == "" && res.version == ""
    ensures res.resource != [] && forall i :: 0 <= i < |res.resource| ==> !IsUpper(res.resource[i])
  {
    var gv := GroupVersion(d.apiVersion);
    Gvr(gv.0, gv.1, ResourceName(d.kind))
  }

  /** A string without the separator splits into itself. */
  lemma {:induction false} SplitNoSeparator(s: string, sep: char)
    requires sep !in s
    ensures Split(s, sep) == [s]
  {
    if s != [] {
      SplitNoSeparator(s[1..], sep);
    }
  }

  /** A string with exactly one separator splits into the two sides. */
  lemma {:induction false} SplitOnce(a: string, b: string, sep: char)
    requires sep !in a && sep !in b
    ensures Split(a + [sep] + b, sep) == [a, b]
  {
    var s := a + [sep] + b;
    if a == [] {
      assert s[1..] == b;
      SplitNoSeparator(b, sep);
    } else {
      assert s[1..] == a[1..] + [sep] + b;
      SplitOnce(a[1..], b, sep);
      assert [a[0]] + a[1..] == a;
    }
  }

  /** An apiVersion of the form group/version resolves to that group and version. */
  lemma GroupVersionOf(group: string, version: string)
    requires '/' !in group && '/' !in version
    ensures GroupVersion(group + "/" + version) == (group, version)
  {
    SplitOnce(group, version, '/');
  }

  /** Lower-casing agrees with a given lower-case spelling letter by letter. */
  lemma ToLowerIs(kind: string, lower: string)
    requires |kind| == |lower|
    requires forall i :: 0 <= i < |kind| ==> LowerChar(kind[i]) == lower[i]
    ensures ToLower(kind) == lower
  {
  }

  lemma IstioNetworkingVersion(d: Document)
    requires d.apiVersion == "networking.istio.io/v1alpha3"
    ensures GroupVersion(d.apiVersion) == ("networking.istio.io", "v1alpha3")
  {
    GroupVersionOf("networking.istio.io", "v1alpha3");
    assert "networking.istio.io" + "/" + "v1alpha3" == d.apiVersion;
  }

  lemma ServiceEntryKind(d: Document)
    requires d.kind == "ServiceEntry"
    ensures ResourceName(d.kind) == "serviceentries"
  {
    ToLowerIs(d.kind, "serviceentry");
  }

  /** A ServiceEntry of networking.istio.io/v1alpha3 takes the irregular plural. */
  lemma ServiceEntryResource(d: Document)
    requires d.apiVersion == "networking.istio.io/v1alpha3" && d.kind == "ServiceEntry"
    ensures ResourceFor(d) == Gvr("networking.istio.io", "v1alpha3", "serviceentries")
  {
    IstioNetworkingVersion(d);
    ServiceEntryKind(d);
  }

  lemma AppsVersion(d: Document)
    requires d.apiVersion == "apps/v1"
    ensures GroupVersion(d.apiVersion) == ("apps", "v1")
  {
    GroupVersionOf("apps", "v1");
    assert "apps" + "/" + "v1" == d.apiVersion;
  }

  lemma DeploymentKind(d: Document)
    requires d.kind == "Deployment"
    ensures ResourceName(d.kind) == "deployments"
  {
    ToLowerIs(d.kind, "deployment");
  }

  /** A Deployment of apps/v1 takes the regular plural. */
  lemma DeploymentResource(d: Document)
    requires d.apiVersion == "apps/v1" && d.kind == "Deployment"
    ensures ResourceFor(d) == Gvr("apps", "v1", "deployments")
  {
    AppsVersion(d);
    DeploymentKind(d);
  }
}

=== FILE: reconcile.dfy ===
/**
 * The reconciler as functions over a value of the API surface: the four
 * primitives with their namespace fallback, the create/update/recreate state
 * machine of `executeRule`, the per-document drivers and the two compositions
 * `labelNamespaceForAutoInjection` and `executeInstall`. The class methods in
 * client.dfy are proved equal to these functions.
 */
module Reconcile {
  import opened Resources
  import opened Locator
  import Splitter

  datatype Verb = Create | Get | Update | Delete

  /** One call as the API surface saw it: the verb, the address and the object sent or addressed. */
  datatype Request = Request(verb: Verb, key: Key, body: Document)

  /**
   * The API surface: the stored objects, the resource types that are cluster
   * scoped and the scripted faults still to come.
   * A call takes the head of `faults`: `Some(e)` makes it fail with `e`; `None`
   * or an empty script lets the store answer on its own.
   */
  datatype Store = Store(
    objects: map<Key, Document>,
    clusterScoped: set<Gvr>,
    faults: seq<Option<ApiError>>)

  /** The store after an operation, the operation's result and the requests it sent, in order. */
  datatype Step<+T> = Step(store: Store, result: Result<T>, sent: seq<Request>)

  /** A step preceded by the requests `earlier`. */
  function After<T>(earlier: seq<Request>, r: Step<T>): Step<T>
  {
    r.(sent := earlier + r.sent)
  }

  /** Every stored object sits under its own name. */
  ghost predicate WellKeyed(s: Store)
  {
    forall k :: k in s.objects ==> s.objects[k].meta.name == k.name
  }

  /**
   * How any operation changes the store apart from its objects: the scope
   * table stays and the fault script only shrinks.
   */
  predicate Evolves(s: Store, t: Store)
  {
    && t.clusterScoped == s.clusterScoped
    && |t.faults| <= |s.faults|
    && (s.faults == [] ==> t.faults == [])
  }

  /** A cluster-scoped resource type has no namespaced address. */
  predicate Reachable(s: Store, k: Key)
  {
    !(k.gvr in s.clusterScoped && k.namespace != "")
  }

  /** One call to the API surface. */
  function Call(s: Store, verb: Verb, k: Key, body: Document): (r: Step<Document>)
    requires k.name == body.meta.name
    ensures Evolves(s, r.store)
    ensures r.sent == [Request(verb, k, body)]
  {
    var t := s.(faults := if s.faults == [] then [] else s.faults[1..]);
    var sent := [Request(verb, k, body)];
    if s.faults != [] && s.faults[0].Some? then Step(t, Err(Api(s.faults[0].value)), sent)
    else if !Reachable(s, k) then Step(t, Err(Api(NotFound)), sent)
    else match verb
      case Create =>
        if k in s.objects then Step(t, Err(Api(AlreadyExists)), sent)
        else Step(t.(objects := s.objects[k := body]), Ok(body), sent)
      case Get =>
        if k in s.objects then Step(t, Ok(s.objects[k]), sent) else Step(t, Err(Api(NotFound)), sent)
      case Update =>
        if k in s.objects then Step(t.(objects := s.objects[k := body]), Ok(body), sent)
        else Step(t, Err(Api(NotFound)), sent)
      case Delete =>
        if k in s.objects then Step(t.(objects := s.objects - {k}), Ok(s.objects[k]), sent)
        else Step(t, Err(Api(NotFound)), sent)
  }

  /** The namespaced address of a document: `Resource(res).Namespace(ns)`. */
  function NsKey(res: Gvr, d: Document): Key { Key(res, d.meta.namespace, d.meta.name) }

  /** The un-namespaced address of a document: `Resource(res)`. */
  function ClusterKey(res: Gvr, d: Document): Key { Key(res, "", d.meta.name) }

  /** A create result the engine accepts: success or AlreadyExists. */
  predicate Tolerated(r: Result<Document>)
  {
    r.Ok? || r.error == Api(AlreadyExists)
  }

  /** `createResource`. */
  function CreateResource(s: Store, res: Gvr, d: Document): (r: Step<()>)
    ensures Evolves(s, r.store)
  {
    var a := Call(s, Create, NsKey(res, d), d);
    if Tolerated(a.result) then Step(a.store, Ok(()), a.sent)
    else
      var b := Call(a.store, Create, ClusterKey(res, d), d);
      Step(b.store, if Tolerated(b.result) then Ok(()) else Err(b.result.error), a.sent + b.sent)
  }

  /** `getResource`. */
  function GetResource(s: Store, res: Gvr, d: Document): (r: Step<Document>)
    ensures Evolves(s, r.store)
  {
    var a := Call(s, Get, NsKey(res, d), d);
    if a.result.Ok? then a else After(a.sent, Call(a.store, Get, ClusterKey(res, d), d))
  }

  /** `updateResource`: no fallback after a namespaced MethodNotAllowed. */
  function UpdateResource(s: Store, res: Gvr, d: Document): (r: Step<()>)
    ensures Evolves(s, r.store)
  {
    var a := Call(s, Update, NsKey(res, d), d);
    if a.result.Ok? then Step(a.store, Ok(()), a.sent)
    else if a.result.error == Api(MethodNotAllowed) then Step(a.store, Err(a.result.error), a.sent)
    else
      var b := Call(a.store, Update, ClusterKey(res, d), d);
      Step(b.store, if b.result.Ok? then Ok(()) else Err(b.result.error), a.sent + b.sent)
  }

  /** `spec.replicas = 0` on a fetched object whose spec is a mapping. */
  function ScaledToZero(d: Document): (r: Document)
    requires d.spec.Mapping?
    ensures r.spec.Mapping? && r.spec.fields == d.spec.fields["replicas" := Num(0)]
    ensures r.(spec := d.spec) == d
  {
    d.(spec := Mapping(d.spec.fields["replicas" := Num(0)]))
  }

  /** The two delete calls at the end of `deleteResource`. */
  function DeleteCalls(s: Store, res: Gvr, d: Document): (r: Step<()>)
    ensures Evolves(s, r.store)
  {
    var a := Call(s, Delete, NsKey(res, d), d);
    if a.result.Ok? then Step(a.store, Ok(()), a.sent)
    else
      var b := Call(a.store, Delete, ClusterKey(res, d), d);
      Step(b.store, if b.result.Ok? then Ok(()) else Err(b.result.error), a.sent + b.sent)
  }

  /**
   * `deleteResource`: never the namespace named default; a deployment is first
   * fetched and written back with zero replicas, and a failure there aborts.
   */
  function DeleteResource(s: Store, connected: bool, res: Gvr, d: Document): (r: Step<()>)
    ensures Evolves(s, r.store)
  {
    if !connected then Step(s, Err(NoClient), [])
    else if res.resource == "namespaces" && d.meta.name == "default" then Step(s, Ok(()), [])
    else if res.resource == "deployments" then
      var g := GetResource(s, res, d);
      if g.result.Err? then Step(g.store, Err(g.result.error), g.sent)
      else if !g.result.value.spec.Mapping? then Step(g.store, Err(Crash), g.sent)
      else
        var u := UpdateResource(g.store, res, ScaledToZero(g.result.value));
        if u.result.Err? then After(g.sent, u)
        else After(g.sent + u.sent, DeleteCalls(u.store, res, d))
    else DeleteCalls(s, res, d)
  }

  /** The five server-assigned identity fields of `live` copied onto `d`. */
  function CopyIdentity(d: Document, live: Document): (r: Document)
    ensures r.meta.creationTimestamp == live.meta.creationTimestamp
    ensures r.meta.generateName == live.meta.generateName
    ensures r.meta.generation == live.meta.generation
    ensures r.meta.selfLink == live.meta.selfLink
    ensures r.meta.resourceVersion == live.meta.resourceVersion
    ensures r.apiVersion == d.apiVersion && r.kind == d.kind && r.spec == d.spec
    ensures r.meta.name == d.meta.name && r.meta.namespace == d.meta.namespace
    ensures r.meta.labels == d.meta.labels && r.meta.uid == d.meta.uid
  {
    d.(meta := d.meta.(
      creationTimestamp := live.meta.creationTimestamp,
      generateName := live.meta.generateName,
      generation := live.meta.generation,
      selfLink := live.meta.selfLink,
      resourceVersion := live.meta.resourceVersion))
  }

  /**
   * How one pass of the create step ends: with the step's result, or with the
   * update refused with `error` (MethodNotAllowed) and the refreshed document
   * deleted, ready to jump back to create, having sent `sent`.
   */
  datatype Outcome =
    | Finished(step: Step<()>)
    | Refused(store: Store, data: Document, error: Error, sent: seq<Request>)

  /**
   * One pass from `RETRY:`: create; on failure either the custom path
   * (delete, then one more create) or fetch, copy identity, update, and on
   * MethodNotAllowed delete, its error ignored unless the delete panicked
   * (`Crash`), which ends the step.
   */
  function CreatePass(s: Store, connected: bool, res: Gvr, d: Document, custom: bool): (o: Outcome)
    ensures o.Finished? ==> Evolves(s, o.step.store)
    ensures o.Refused? ==> Evolves(s, o.store) && o.error == Api(MethodNotAllowed) && !custom
  {
    var c := CreateResource(s, res, d);
    if c.result.Ok? then Finished(c)
    else if custom then
      var x := DeleteResource(c.store, connected, res, d);
      if x.result.Err? then Finished(After(c.sent, x))
      else Finished(After(c.sent + x.sent, CreateResource(x.store, res, d)))
    else
      var g := GetResource(c.store, res, d);
      if g.result.Err? then Finished(Step(g.store, Err(g.result.error), c.sent + g.sent))
      else
        var d' := CopyIdentity(d, g.result.value);
        var u := UpdateResource(g.store, res, d');
        if u.result.Ok? || u.result.error != Api(MethodNotAllowed) then Finished(After(c.sent + g.sent, u))
        else
          var x := DeleteResource(u.store, connected, res, d');
          if x.result == Err(Crash) then Finished(Step(x.store, Err(Crash), c.sent + g.sent + u.sent + x.sent))
          else Refused(x.store, d', u.result.error, c.sent + g.sent + u.sent + x.sent)
  }

  /** The retry bound of `executeRule`: `goto RETRY` is taken while `trackRetry <= 3`. */
  const MaxRetries: nat := 3

  /**
   * The create step of `executeRule` entered at `RETRY:` with `tries`
   * retries already spent: a refused pass jumps back while the retry bound
   * allows, and otherwise returns the refusal. The pass itself is taken by
   * TakePass, so that unfolding Attempt once does not expose a whole pass.
   */
  function Attempt(s: Store, connected: bool, res: Gvr, d: Document, custom: bool, tries: nat): (r: Step<()>)
    requires tries <= MaxRetries
    ensures Evolves(s, r.store)
    decreases MaxRetries - tries, 1
  {
    TakePass(s, connected, res, d, custom, tries)
  }

  /** One pass from `RETRY:` and what follows it: its own end, the jump back, or the refusal. */
  function TakePass(s: Store, connected: bool, res: Gvr, d: Document, custom: bool, tries: nat): (r: Step<()>)
    requires tries <= MaxRetries
    decreases MaxRetries - tries, 0
  {
    var o := CreatePass(s, connected, res, d, custom);
    if o.Finished? then o.step
    else if tries + 1 <= MaxRetries then After(o.sent, Attempt(o.store, connected, res, o.data, custom, tries + 1))
    else Step(o.store, Err(o.error), o.sent)
  }

  /** A refused pass with retries left hands its store and refreshed document to the next pass. */
  lemma AttemptAgain(s: Store, connected: bool, res: Gvr, d: Document, custom: bool, tries: nat)
    requires tries < MaxRetries
    requires CreatePass(s, connected, res, d, custom).Refused?
    ensures var o := CreatePass(s, connected, res, d, custom);
      Attempt(s, connected, res, d, custom, tries) == After(o.sent, Attempt(o.store, connected, res, o.data, custom, tries + 1))
  {
  }

  /** `executeRule`: stamp, resolve, then delete or create-or-update. */
  function ApplyRule(s: Store, connected: bool, d: Document, namespace: string, delete: bool, custom: bool): (r: Step<()>)
    ensures Evolves(s, r.store)
  {
    var doc := StampNamespace(d, namespace);
    var res := ResourceFor(doc);
    if delete then DeleteResource(s, connected, res, doc)
    else Attempt(s, connected, res, doc, custom, 0)
  }

  /** A member of a List's items: an object, or something else. */
  datatype Item = Object(doc: Document) | NotAnObject

  /** What `UnmarshalJSON` makes of the JSON bytes. */
  datatype Decoded = Malformed | Single(doc: Document) | Items(items: seq<Item>)

  /** The two conversions the drivers call and do not model: `yaml.YAMLToJSON` and `UnmarshalJSON`. */
  datatype Codec = Codec(toJson: seq<byte> -> Option<seq<byte>>, unmarshal: seq<byte> -> Decoded)

  /** `EachListItem` running `executeRule` on each item in order, stopping at the first error. */
  function ApplyItems(s: Store, connected: bool, items: seq<Item>, namespace: string, delete: bool, custom: bool): (r: Step<()>)
    ensures Evolves(s, r.store)
    decreases |items|
  {
    if items == [] then Step(s, Ok(()), [])
    else if items[0].NotAnObject? then Step(s, Err(BadListItem), [])
    else
      var a := ApplyRule(s, connected, items[0].doc, namespace, delete, custom);
      if a.result.Err? then a else After(a.sent, ApplyItems(a.store, connected, items[1..], namespace, delete, custom))
  }

  /** JSON of at most this many bytes (`null`) is skipped. */
  const NullJsonLength: nat := 5

  /** `applyRulePayload`: one chunk of YAML. */
  function ApplyPayload(s: Store, connected: bool, codec: Codec, namespace: string, chunk: seq<byte>, delete: bool, custom: bool): (r: Step<()>)
    ensures Evolves(s, r.store)
  {
    if !connected then Step(s, Err(NoClient), [])
    else match codec.toJson(chunk)
      case None => Step(s, Err(BadYaml), [])
      case Some(json) =>
        if |json| <= NullJsonLength then Step(s, Ok(()), [])
        else match codec.unmarshal(json)
          case Malformed => Step(s, Err(BadJson), [])
          case Items(items) => ApplyItems(s, connected, items, namespace, delete, custom)
          case Single(doc) => ApplyRule(s, connected, doc, namespace, delete, custom)
  }

  /** The bytes `strings.TrimSpace` removes (its ASCII part). */
  predicate IsSpace(b: byte)
  {
    b == 9 || b == 10 || b == 11 || b == 12 || b == 13 || b == 32
  }

  /** A chunk that `strings.TrimSpace` turns into "". */
  predicate Blank(chunk: seq<byte>)
  {
    forall i :: 0 <= i < |chunk| ==> IsSpace(chunk[i])
  }

  /**
   * The loop of `applyConfigChange`: blank chunks skipped, the first error
   * returned, and in delete mode a return right after the first non-blank
   * chunk, because the error it wraps there is nil.
   */
  function ApplyChunks(s: Store, connected: bool, codec: Codec, chunks: seq<seq<byte>>, namespace: string, delete: bool, custom: bool): (r: Step<()>)
    ensures Evolves(s, r.store)
    decreases |chunks|
  {
    if chunks == [] then Step(s, Ok(()), [])
    else if Blank(chunks[0]) then ApplyChunks(s, connected, codec, chunks[1..], namespace, delete, custom)
    else
      var a := ApplyPayload(s, connected, codec, namespace, chunks[0], delete, custom);
      if a.result.Err? then a
      else if delete then Step(a.store, Ok(()), a.sent)
      else After(a.sent, ApplyChunks(a.store, connected, codec, chunks[1..], namespace, delete, custom))
  }

  /** A manifest as the engine sees it: the document decoder built on its text, if one can be. */
  type Manifest = Option<seq<Splitter.Read>>

  /** `applyConfigChange`. */
  function ApplyConfigChange(s: Store, connected: bool, codec: Codec, manifest: Manifest, namespace: string, delete: bool, custom: bool): (r: Step<()>)
    ensures Evolves(s, r.store)
  {
    match Splitter.Entries(manifest)
    case Err(e) => Step(s, Err(e), [])
    case Ok(chunks) => ApplyChunks(s, connected, codec, chunks, namespace, delete, custom)
  }

  /** The resource type of namespaces. */
  const NamespacesGvr := Gvr("", "v1", "namespaces")

  /** The label set `labelNamespaceForAutoInjection` writes, replacing all others. */
  const InjectionLabels: map<string, string> := map["istio-injection" := "enabled"]

  /** The fetched namespace object with its label map replaced by the injection label. */
  function WithInjectionLabel(d: Document): (r: Document)
    ensures r.meta.labels == InjectionLabels && r.meta.name == d.meta.name
    ensures r.meta.namespace == d.meta.namespace
    ensures r.(meta := r.meta.(labels := d.meta.labels)) == d
  {
    d.(meta := d.meta.(labels := InjectionLabels))
  }

  /** `createNamespace`: the rendered namespace template applied into that namespace. */
  function CreateNamespace(s: Store, connected: bool, codec: Codec, namespace: string, template: Result<Manifest>): (r: Step<()>)
    ensures Evolves(s, r.store)
  {
    if template.Err? then Step(s, Err(template.error), [])
    else ApplyConfigChange(s, connected, codec, template.value, namespace, false, false)
  }

  /**
   * `labelNamespaceForAutoInjection`: fetch the namespace; when it is not
   * found, create it from the rendered template (`template`) and fetch again,
   * then write it with the injection label as its only label. Without a
   * client the first fetch dereferences a nil client, modelled as `Crash`.
   */
  function LabelNamespace(s: Store, connected: bool, codec: Codec, namespace: string, template: Result<Manifest>): (r: Step<()>)
    ensures Evolves(s, r.store)
  {
    if !connected then Step(s, Err(Crash), [])
    else
      var probe := Named(namespace);
      var g := GetResource(s, NamespacesGvr, probe);
      if g.result.Ok? then After(g.sent, UpdateResource(g.store, NamespacesGvr, WithInjectionLabel(g.result.value)))
      else if g.result.error != Api(NotFound) then Step(g.store, Err(g.result.error), g.sent)
      else
        var c := CreateNamespace(g.store, connected, codec, namespace, template);
        if c.result.Err? then After(g.sent, c)
        else
          var g2 := GetResource(c.store, NamespacesGvr, probe);
          if g2.result.Err? then Step(g2.store, Err(g2.result.error), g.sent + c.sent + g2.sent)
          else After(g.sent + c.sent + g2.sent, UpdateResource(g2.store, NamespacesGvr, WithInjectionLabel(probe)))
  }

  /** `applyIstioCRDs`: every CRD manifest in order, with no target namespace, stopping at the first error. */
  function ApplyCrds(s: Store, connected: bool, codec: Codec, crds: seq<Manifest>, delete: bool): (r: Step<()>)
    ensures Evolves(s, r.store)
    decreases |crds|
  {
    if crds == [] then Step(s, Ok(()), [])
    else
      var a := ApplyConfigChange(s, connected, codec, crds[0], "", delete, false);
      if a.result.Err? then a else After(a.sent, ApplyCrds(a.store, connected, codec, crds[1..], delete))
  }

  /** The main manifest's change: an unavailable manifest is an error. */
  function MainChange(s: Store, connected: bool, codec: Codec, main: Result<Manifest>, delete: bool): (r: Step<()>)
    ensures Evolves(s, r.store)
  {
    if main.Err? then Step(s, Err(main.error), [])
    else ApplyConfigChange(s, connected, codec, main.value, "", delete, false)
  }

  /**
   * `executeInstall`: install applies the CRDs and then the main manifest;
   * removal deletes the main manifest and then, deferred, the CRDs, whose
   * error is only logged; a panic there (`Crash`) still ends the call.
   */
  function ExecuteInstall(s: Store, connected: bool, codec: Codec, crds: Result<seq<Manifest>>, main: Result<Manifest>, delete: bool): (r: Step<()>)
    ensures Evolves(s, r.store)
  {
    if delete then
      var m := MainChange(s, connected, codec, main, true);
      if crds.Err? then m
      else
        var c := ApplyCrds(m.store, connected, codec, crds.value, true);
        Step(c.store, if c.result == Err(Crash) then Err(Crash) else m.result, m.sent + c.sent)
    else if crds.Err? then Step(s, Err(crds.error), [])
    else
      var c := ApplyCrds(s, connected, codec, crds.value, false);
      if c.result.Err? then c else After(c.sent, MainChange(c.store, connected, codec, main, false))
  }
}

=== FILE: resources.dfy ===
/**
 * The values the reconciliation engine works on: manifest documents (the
 * unstructured objects of the Kubernetes dynamic client), the resource
 * descriptor a document resolves to, the keys of the API surface and the
 * error classes the engine branches on.
 */
module Resources {

  /** One octet of a manifest stream. */
  newtype byte = b: int | 0 <= b < 256

  datatype Option<+T> = None | Some(value: T)

  datatype Result<+T> = Ok(value: T) | Err(error: Error)

  /**
   * The error classes the API surface distinguishes. `MethodNotAllowed` is the
   * error whose message contains "the server does not allow this method on the
   * requested resource".
   */
  datatype ApiError = AlreadyExists | NotFound | MethodNotAllowed | Other

  /** Every way an engine operation can fail. */
  datatype Error =
    | Api(kind: ApiError) // a call to the API surface failed
    | NoClient            // "mesh client has not been created"
    | NoDecoder           // "unable to create a yaml decoder"
    | BadYaml             // the YAML chunk could not be converted to JSON
    | BadJson             // the JSON could not be unmarshalled into an object
    | BadListItem         // a member of a List's items is not an object
    | Crash               // a failed type assertion, which panics in the Go code
    | Unavailable         // a manifest or template could not be produced

  /** The untyped content of a document, as a JSON tree. */
  datatype Value =
    | Null
    | Bool(b: bool)
    | Num(n: int)
    | Str(s: string)
    | List(elems: seq<Value>)
    | Mapping(fields: map<string, Value>)

  /**
   * The metadata of a document: its address (name, namespace), its labels and
   * the server-assigned identity fields.
   */
  datatype Meta = Meta(
    name: string,
    namespace: string,
    labels: map<string, string>,
    uid: string,
    creationTimestamp: string,
    generateName: string,
    generation: int,
    selfLink: string,
    resourceVersion: string)

  /** A manifest document: the strongly typed header plus its untyped spec. */
  datatype Document = Document(apiVersion: string, kind: string, meta: Meta, spec: Value)

  /** A resource descriptor: group, version and plural resource name. */
  datatype Gvr = Gvr(group: string, version: string, resource: string)

  /** The address of one object on the API surface; "" is the cluster scope. */
  datatype Key = Key(gvr: Gvr, namespace: string, name: string)

  /** A document with nothing set but its name, as `SetName` on an empty object leaves it. */
  function Named(name: string): (d: Document)
    ensures d.meta.name == name && d.meta.namespace == "" && d.meta.labels == map[]
  {
    Document("", "", Meta(name, "", map[], "", "", "", 0, "", ""), Null)
  }
}

=== FILE: splitter.dfy ===
/**
 * The chunk splitter, `splitYAML`. The YAML document decoder is an oracle: the
 * sequence of results its `Read` calls return. A read that ends a document
 * (error nil) closes the current entry, a read that fills the buffer
 * (io.ErrShortBuffer) continues it, and any other result (io.EOF included)
 * ends the loop. A decoder past the end of its script returns io.EOF.
 */
module Splitter {
  import opened Resources

  /** The size of the buffer handed to every `Read`. */
  const BufferSize: nat := 1000

  /** The bytes a single `Read` writes: never more than the buffer holds. */
  type Chunk = s: seq<byte> | |s| <= BufferSize

  datatype ReadStatus = Boundary | ShortBuffer | Stop

  datatype Read = Read(data: Chunk, status: ReadStatus)

  /** The i-th read of the decoder script; io.EOF once the script is spent. */
  function ReadAt(script: seq<Read>, i: nat): Read
  {
    if i < |script| then script[i] else Read([], Stop)
  }

  function Zeros(n: nat): (z: seq<byte>)
    ensures |z| == n && forall k :: 0 <= k < n ==> z[k] == 0
  {
    seq(n, _ => 0)
  }

  /**
   * What one read adds to the current entry: nothing when no byte was read,
   * otherwise the whole buffer, the bytes read followed by zero fill.
   */
  function Appended(r: Read): seq<byte>
  {
    if |r.data| > 0 then r.data + Zeros(BufferSize - |r.data|) else []
  }

  /** The number of reads that end a document before the first read that ends the loop. */
  function Boundaries(script: seq<Read>): nat
  {
    if script == [] then 0
    else match script[0].status
      case Stop => 0
      case Boundary => 1 + Boundaries(script[1..])
      case ShortBuffer => Boundaries(script[1..])
  }

  /**
   * The untrimmed entries built from a decoder script, in read order: one per
   * document-ending read, plus the one the loop-ending read lands in.
   */
  function Segments(script: seq<Read>): (g: seq<seq<byte>>)
    ensures |g| == Boundaries(script) + 1
  {
    if script == [] then [[]]
    else match script[0].status
      case Stop => [Appended(script[0])]
      case Boundary => [Appended(script[0])] + Segments(script[1..])
      case ShortBuffer =>
        var g := Segments(script[1..]);
        [Appended(script[0]) + g[0]] + g[1..]
  }

  /** The bytes the loop takes in, in read order, up to and including the read that ends it. */
  function Consumed(script: seq<Read>): seq<byte>
  {
    if script == [] then []
    else if script[0].status == Stop then Appended(script[0])
    else Appended(script[0]) + Consumed(script[1..])
  }

  /** The entries laid end to end. */
  function Concat(g: seq<seq<byte>>): seq<byte>
  {
    if g == [] then [] else g[0] + Concat(g[1..])
  }

  /** The untrimmed entries hold exactly the bytes read, in read order, nothing lost or reordered. */
  lemma {:induction false} SegmentsInReadOrder(script: seq<Read>)
    ensures Concat(Segments(script)) == Consumed(script)
  {
    if script == [] {
      assert Concat([[]]) == [] + Concat([]);
    } else {
      var a := Appended(script[0]);
      match script[0].status
      case Stop =>
        assert Concat([a]) == a + Concat([]);
      case Boundary =>
        var g := Segments(script[1..]);
        SegmentsInReadOrder(script[1..]);
        assert ([a] + g)[1..] == g;
      case ShortBuffer =>
        var g := Segments(script[1..]);
        SegmentsInReadOrder(script[1..]);
        assert ([a + g[0]] + g[1..])[1..] == g[1..];
        assert Concat(g) == g[0] + Concat(g[1..]);
    }
  }

  /** Number of NUL bytes at the front of `s`. */
  function LeadingNuls(s: seq<byte>): (n: nat)
    ensures n <= |s|
  {
    if s != [] && s[0] == 0 then 1 + LeadingNuls(s[1..]) else 0
  }

  /**
   * `strings.Trim(r, "\x00")`: the NUL bytes at both ends removed, one at a
   * time; what is left starts and ends with a non-NUL byte.
   */
  function TrimNul(s: seq<byte>): (r: seq<byte>)
    ensures |r| <= |s|
    ensures |r| > 0 ==> r[0] != 0 && r[|r| - 1] != 0
    decreases |s|
  {
    if s != [] && s[0] == 0 then TrimNul(s[1..])
    else if s != [] && s[|s| - 1] == 0 then TrimNul(s[..|s| - 1])
    else s
  }

  /** `r` is the slice of `s` left between its leading NULs and a run of trailing NULs. */
  ghost predicate NulFramed(s: seq<byte>, r: seq<byte>)
  {
    && LeadingNuls(s) + |r| <= |s|
    && r == s[LeadingNuls(s)..LeadingNuls(s) + |r|]
    && forall k :: 0 <= k < LeadingNuls(s) || LeadingNuls(s) + |r| <= k < |s| ==> s[k] == 0
  }

  /** Trimming removes NUL bytes only: the result is framed by NULs in `s`. */
  lemma {:induction false} TrimNulRemovesNuls(s: seq<byte>)
    ensures NulFramed(s, TrimNul(s))
    decreases |s|
  {
    if s != [] && s[0] == 0 {
      TrimNulRemovesNuls(s[1..]);
      LeadingNulFramed(s);
    } else if s != [] && s[|s| - 1] == 0 {
      TrimNulRemovesNuls(s[..|s| - 1]);
      TrailingNulFramed(s);
    } else {
      assert LeadingNuls(s) == 0;
    }
  }

  lemma LeadingNulFramed(s: seq<byte>)
    requires s != [] && s[0] == 0
    requires NulFramed(s[1..], TrimNul(s[1..]))
    ensures NulFramed(s, TrimNul(s))
  {
    var tail := s[1..];
    var r := TrimNul(tail);
    var i := LeadingNuls(tail);
    assert TrimNul(s) == r;
    assert LeadingNuls(s) == i + 1;
    DropShift(s, i, i + |r|);
    forall k | 0 <= k < |s| && (k < i + 1 || i + 1 + |r| <= k)
      ensures s[k] == 0
    {
      if k > 0 {
        assert s[k] == tail[k - 1];
      }
    }
  }

  /** A slice of the tail is the slice of the whole shifted by one. */
  lemma DropShift(s: seq<byte>, i: nat, j: nat)
    requires s != [] && i <= j <= |s| - 1
    ensures s[1..][i..j] == s[i + 1..j + 1]
  {
    assert |s[1..][i..j]| == |s[i + 1..j + 1]|;
    forall k | 0 <= k < j - i
      ensures s[1..][i..j][k] == s[i + 1..j + 1][k]
    {
    }
  }

  lemma TrailingNulFramed(s: seq<byte>)
    requires s != [] && s[0] != 0 && s[|s| - 1] == 0
    requires NulFramed(s[..|s| - 1], TrimNul(s[..|s| - 1]))
    ensures NulFramed(s, TrimNul(s))
  {
    var front := s[..|s| - 1];
    assert |s| >= 2 && front[0] == s[0];
    var r := TrimNul(front);
    assert LeadingNuls(front) == 0;
    assert r == front[..|r|];
    assert r == s[..|r|];
    forall k | |r| <= k < |s|
      ensures s[k] == 0
    {
      if k < |front| {
        assert s[k] == front[k];
      }
    }
    assert TrimNul(s) == r;
  }

  function TrimAll(g: seq<seq<byte>>): (r: seq<seq<byte>>)
  {
    seq(|g|, k requires 0 <= k < |g| => TrimNul(g[k]))
  }

  /**
   * The result of `splitYAML`: an error only when no decoder can be built
   * (`None`); otherwise one entry per document-ending read plus one, in read
   * order, none with a NUL at either end.
   */
  function Entries(decoder: Option<seq<Read>>): (r: Result<seq<seq<byte>>>)
    ensures r.Err? <==> decoder.None?
    ensures r.Err? ==> r.error == NoDecoder
    ensures r.Ok? ==> |r.value| == Boundaries(decoder.value) + 1
    ensures r.Ok? ==> forall k :: 0 <= k < |r.value| ==> TrimNul(r.value[k]) == r.value[k]
    ensures r.Ok? ==> forall k :: 0 <= k < |r.value| ==> r.value[k] == TrimNul(Segments(decoder.value)[k])
  {
    match decoder
    case None => Err(NoDecoder)
    case Some(script) =>
      var entries := TrimAll(Segments(script));
      forall k | 0 <= k < |entries| ensures TrimNul(entries[k]) == entries[k] {
        TrimNulIdempotent(Segments(script)[k]);
      }
      Ok(entries)
  }

  lemma TrimNulIdempotent(s: seq<byte>)
    ensures TrimNul(TrimNul(s)) == TrimNul(s)
  {
  }

  /**
   * The entries collected so far glued to the entries the remaining reads
   * build: appended after them when the last read closed an entry
   * (`ind == |data|`), or continuing the open last entry otherwise.
   */
  function Glue(data: seq<seq<byte>>, ind: nat, g: seq<seq<byte>>): seq<seq<byte>>
    requires ind <= |data| <= ind + 1 && |g| >= 1
  {
    if ind == |data| then data + g else data[..ind] + [data[ind] + g[0]] + g[1..]
  }

  /** `splitYAML`: the read loop, then the trim pass. */
  method SplitYaml(decoder: Option<seq<Read>>) returns (r: Result<seq<seq<byte>>>)
    ensures r == Entries(decoder)
  {
    if decoder.None? {
      return Err(NoDecoder);
    }
    var data := ReadEntries(decoder.value);
    var entries := TrimEntries(data);
    return Ok(entries);
  }

  /** The read loop of `splitYAML`: grows `data` read by read and advances `ind` at each document end. */
  method ReadEntries(script: seq<Read>) returns (data: seq<seq<byte>>)
    ensures data == Segments(script)
  {
    data := [];
    var ind := 0;
    var i := 0;
    var more := true;
    while more
      invariant i <= |script| + 1
      invariant more ==> i <= |script| && ind <= |data| <= ind + 1
      invariant more ==> Segments(script) == Glue(data, ind, Segments(script[i..]))
      invariant !more ==> Segments(script) == data
      decreases |script| + 1 - i
    {
      var rd := ReadAt(script, i);
      ghost var before := data;
      i := i + 1;
      if |data| == 0 || |data| <= ind {
        data := data + [[]];
      }
      if |rd.data| > 0 {
        data := data[ind := data[ind] + rd.data + Zeros(BufferSize - |rd.data|)];
      }
      GrowEntry(before, ind, rd, data);
      SplitStep(script, i - 1, before, ind, rd, data);
      if rd.status == Boundary {
        ind := ind + 1;
      }
      more := rd.status != Stop;
    }
  }

  /** The pass that converts every entry to a string with its NUL bytes trimmed. */
  method TrimEntries(data: seq<seq<byte>>) returns (result: seq<seq<byte>>)
    ensures result == TrimAll(data)
  {
    result := [];
    for k := 0 to |data|
      invariant |result| == k
      invariant forall j :: 0 <= j < k ==> result[j] == TrimNul(data[j])
    {
      result := result + [TrimNul(data[k])];
    }
  }

  /** The entry a read lands in: current when none is open, then grown by what the read adds. */
  lemma GrowEntry(before: seq<seq<byte>>, open: nat, rd: Read, data: seq<seq<byte>>)
    requires open <= |before| <= open + 1
    requires var current := if |before| == 0 || |before| <= open then before + [[]] else before;
      data == if |rd.data| > 0 then current[open := current[open] + rd.data + Zeros(BufferSize - |rd.data|)] else current
    ensures data == before[..open] + [(if open < |before| then before[open] else []) + Appended(rd)]
  {
    var prefix := if open < |before| then before[open] else [];
    var current := if |before| == 0 || |before| <= open then before + [[]] else before;
    assert current == before[..open] + [prefix];
    if |rd.data| > 0 {
      assert prefix + rd.data + Zeros(BufferSize - |rd.data|) == prefix + Appended(rd);
    } else {
      assert prefix + Appended(rd) == prefix;
    }
  }

  /** One turn of the read loop keeps the glued view equal to the whole script's entries. */
  lemma SplitStep(script: seq<Read>, i: nat, before: seq<seq<byte>>, open: nat, rd: Read, data: seq<seq<byte>>)
    requires i <= |script| && rd == ReadAt(script, i)
    requires open <= |before| <= open + 1
    requires data == before[..open] + [(if open < |before| then before[open] else []) + Appended(rd)]
    requires Segments(script) == Glue(before, open, Segments(script[i..]))
    ensures rd.status == Stop ==> Segments(script) == data
    ensures rd.status == Boundary ==>
      i < |script| && Segments(script) == Glue(data, open + 1, Segments(script[i + 1..]))
    ensures rd.status == ShortBuffer ==>
      i < |script| && Segments(script) == Glue(data, open, Segments(script[i + 1..]))
  {
    var prefix := if open < |before| then before[open] else [];
    if i == |script| {
      assert script[i..] == [];
      GlueLast(before, open, prefix, []);
    } else {
      assert script[i..] == [rd] + script[i + 1..];
      var h := Segments(script[i + 1..]);
      match rd.status
      case Stop =>
        GlueLast(before, open, prefix, Appended(rd));
      case Boundary =>
        GlueClosed(before, open, prefix, Appended(rd), h);
      case ShortBuffer =>
        GlueOpen(before, open, prefix, Appended(rd), h);
    }
  }

  lemma GlueLast(before: seq<seq<byte>>, open: nat, prefix: seq<byte>, a: seq<byte>)
    requires open <= |before| <= open + 1
    requires prefix == if open < |before| then before[open] else []
    ensures Glue(before, open, [a]) == before[..open] + [prefix + a]
  {
    if open == |before| {
      assert before[..open] == before;
      assert prefix + a == a;
    }
  }

  lemma GlueClosed(before: seq<seq<byte>>, open: nat, prefix: seq<byte>, a: seq<byte>, h: seq<seq<byte>>)
    requires open <= |before| <= open + 1 && |h| >= 1
    requires prefix == if open < |before| then before[open] else []
    ensures Glue(before, open, [a] + h) == Glue(before[..open] + [prefix + a], open + 1, h)
  {
    if open == |before| {
      assert before[..open] == before;
      assert prefix + a == a;
    }
  }

  lemma GlueOpen(before: seq<seq<byte>>, open: nat, prefix: seq<byte>, a: seq<byte>, h: seq<seq<byte>>)
    requires open <= |before| <= open + 1 && |h| >= 1
    requires prefix == if open < |before| then before[open] else []
    ensures Glue(before, open, [a + h[0]] + h[1..]) == Glue(before[..open] + [prefix + a], open, h)
  {
    var data := before[..open] + [prefix + a];
    assert data[..open] == before[..open];
    assert prefix + (a + h[0]) == (prefix + a) + h[0];
    if open == |before| {
      assert before[..open] == before;
      assert prefix + a == a;
    }
  }
}
